=== FILE: README.md ===
# Todo lists: the front end's list controller and its proxy to the API

A model, in Dafny, of the request path a browser's todo-list request takes
through the web front end, and the properties it keeps. The front end runs a
backend-for-frontend (BFF): a small server that forwards each browser request
to the real API.

* `/v1/lists` controller (`ListsController`). Ten actions. Each action reads or
  changes lists and items only through the proxy. Most actions first check
  that the named list (or item) exists. The action then forwards the request
  and maps the answer to an HTTP result.
* Proxy (`ListService`). Eleven methods. Each builds one request: a verb, a URL
  under the configured API base, an optional `Accept` header and an optional
  JSON body. It then returns the decoded response body, or throws an
  exception with a fixed message when the status is not 2xx.
* Entities (`TodoList`, `TodoItem`). Their fields and the defaults their
  constructors set.

Files, one module each:

| file | module | contents |
|---|---|---|
| `wrappers.dfy` | `Wrappers` | `Option`, standing in for C# nullable values |
| `models.dfy` | `Models` | the two entities and their constructors (`now` replaces `DateTimeOffset.UtcNow`) |
| `http.dfy` | `Http` | verbs, paths, the `skip`/`batchSize` query, requests and responses. Also the URL text, its parser, and the proofs that the parser reads the URL back |
| `list_service.dfy` | `ListService` | the eleven proxy methods as a `Call`, the request each sends (`BuildRequest`), the upstream's reading of a request (`Interpret`), the error messages, and the status-to-result mapping |
| `api.dfy` | `Api` | a reference upstream: a store of lists and items, serving the proxy's requests |
| `lists_controller.dfy` | `ListsController` | the ten actions, as functions from a store to a new store and a result. Also a `Step` state machine over them and lemmas relating actions |

The upstream API service is not part of this model. `Api` stands in for it: a
pair of maps, lists by id and items by (list id, item id). Where the upstream
contract leaves a choice open, `Upstream` takes it as a parameter:

* how an absent id is answered (`Miss`): a 2xx status with a JSON `null`
  body, or a 404 status;
* whether item routes also answer "absent" when the list in their path is
  absent (`checksParentList`);
* which requests fail, in which store, with which status (`fault`). A failed
  request changes nothing. With a non-2xx status it has no body; with a 2xx
  status its body is JSON `null`, which the proxy returns as `null`;
* how new ids are generated, and whether they are fresh;
* which page of a collection a `skip`/`batchSize` query, or a state filter,
  selects.

The miss choice matters. The proxy's `GetListAsync` throws on any non-2xx
status. So an action reports `NotFound` only when an existence check returns
`null`: the upstream answers a missing id with `null`, or answers the check
with a 2xx status and a JSON `null` body. A 404 from the upstream becomes an
exception, that is, an
`Error` result carrying the proxy's message. Every one of the eleven messages
reaches a controller result this way: each action's contract says what it
returns when either of its calls fails.

Behaviour of the code that the contracts make explicit:

* Under a 404-answering upstream, an unknown list id yields an error result,
  not 404 (`MissingListIsError`).
* A 2xx answer with a JSON `null` body to a creation makes the action return
  `CreatedAtAction` with a null id and a `null` value; to an update, `Ok(null)`.
  A 2xx answer to a delete that deletes nothing makes it return `NoContent`.
* Creating an item ignores the body's `dueDate` and `completedDate`.
* Updating a list stamps `updatedDate` with the current instant. Nothing orders
  it after the previous stamp.
* Deleting a list leaves its items in the store. Whether they stay reachable
  through the item routes depends on `checksParentList`.
* A creation overwrites an existing entity when the upstream hands out an id
  already in use; the store grows by one exactly when the id is fresh.

`TodoItemState` is not part of this model. Its `Todo` value is taken to be the
string `"todo"`; no property depends on the exact string.

## Model

| member | source | states |
|---|---|---|
| `Models.DefaultList` | src/api/Models/TodoList.cs:4-17 | `new TodoList()` is named "test", has no id, description or update stamp, and was created at the construction instant |
| `Models.NamedList` | src/api/Models/TodoList.cs:8-17 | `new TodoList(name)` keeps the name unchanged, has no id, description or update stamp, and was created at the construction instant |
| `Models.DefaultListIsNamedTest` | src/api/Models/TodoList.cs:4-11 | the two list constructors agree except that the parameterless one supplies the name "test" |
| `Models.NamedListCharacterised` | src/api/Models/TodoList.cs:8-17 | conversely, any list with no id, description or update stamp, created at the instant, is what the constructor builds from its name |
| `Models.NewItem` | src/api/Models/TodoItem.cs:5-18 | `new TodoItem(listId, name)` keeps list id and name, starts in the Todo state, has no id, description, due, completion or update date, and has creation date = construction instant (nullable, so later overwritable) |
| `Models.NewItemCharacterised` | src/api/Models/TodoItem.cs:5-18 | conversely, any item with none of the optional fields set, in the Todo state and created at the instant, is what the constructor builds from its list id and name |
| `Http.IntText` | src/Todo.Web/ListService.cs:21 | an interpolated integer is non-empty, made of decimal digits after an optional leading '-', and starts with '-' exactly when it is negative |
| `Http.OptionalText` | src/Todo.Web/ListService.cs:21 | an interpolated `int?` is empty exactly when it is null, and otherwise a signed decimal numeral |
| `Http.DigitsRoundTrip` | src/Todo.Web/ListService.cs:21 | the decimal text of a natural number reads back as that number |
| `Http.OptionalRoundTrip` | src/Todo.Web/ListService.cs:21 | an interpolated `int?` (empty for null, signed decimal otherwise) reads back as the same optional integer |
| `Http.QueryText` | src/Todo.Web/ListService.cs:21 | the query starts with `?skip=`, and after its leading '?' holds no '?', '/' or '#', so it can end neither the path nor the query early |
| `Http.PageRoundTrip` | src/Todo.Web/ListService.cs:123 | the query always carries both the `skip=` and `batchSize=` keys and reads back as exactly the page it was written from, null bounds included |
| `Http.PathText` | src/Todo.Web/ListService.cs:21-223 | every route starts with `/lists`, and a route whose arguments are plain holds no '?' or '#' |
| `Http.Url` | src/Todo.Web/ListService.cs:21-223 | a request URL is the configured base followed by the route and the query; stripping the base gives back exactly route and query |
| `Http.UrlRoundTrip` | src/Todo.Web/ListService.cs:223 | a request URL reads back as the path and query it was rendered from, whenever every path argument is a plain segment: non-empty, with no '/', backslash, '?', '#', '%', tab, CR or LF, no trailing space, and not "." or ".." |
| `Http.UnescapedIdCollision` | src/Todo.Web/ListService.cs:38-42 | ids are interpolated unescaped: list id "x/items/y" renders the same URL as item "y" of list "x" and is read as that item |
| `Http.FragmentTruncatesState` | src/Todo.Web/ListService.cs:223 | a state containing '#' is cut there: state "a#b" reaches the upstream as "a", and the pagination query after it is lost |
| `Http.FragmentCutsArgument` | src/Todo.Web/ListService.cs:42-223 | for every plain path whose URL ends in an argument, appending '#' and anything to that argument makes the upstream read the original path, with no query |
| `Http.FragmentDropped` | src/Todo.Web/ListService.cs:21-223 | whatever follows the first '#' of the text after the base never reaches the upstream: the path before it is read alone, with no query |
| `ListService.ErrorMessage` | src/Todo.Web/ListService.cs:35-237 | each method throws an "Error ..." message from which the method is read back, so no two methods share a message |
| `ListService.BuildRequest` | src/Todo.Web/ListService.cs:17-238 | deletes are DELETE requests with no Accept header and no body; every other method sends Accept. Only add/update methods carry a body, the serialized entity. Only the three collection reads carry a query, holding their skip and batchSize unmodified. Update-list routes by `list.Id`, add-item by `item.ListId`, update-item by `item.ListId` and `item.Id`. The upstream reads every request back as the call that sent it |
| `ListService.InterpretInvertsBuild` | src/Todo.Web/ListService.cs:17-238 | the upstream reads each request as exactly the call that sent it, and reads no other request as that call |
| `ListService.UrlCarriesCall` | src/Todo.Web/ListService.cs:219-223 | from the verb, URL text, Accept header and body the upstream recovers the method and every argument, the state path segment and the pagination included, when ids and state are plain segments (non-empty, with no '/', backslash, '?', '#', '%', tab, CR or LF, no trailing space, and not "." or "..") |
| `ListService.FragmentRedirectsCall` | src/Todo.Web/ListService.cs:38-213 | ids are not escaped: a read or delete of one list or item whose last id is a plain id followed by '#' and anything is read upstream as the same call on the plain id |
| `ListService.HashInListIdRedirects` | src/Todo.Web/ListService.cs:38-113 | the check and the delete sent for list "a#b" are read upstream as reading and deleting list "a" |
| `ListService.Receive` | src/Todo.Web/ListService.cs:31-35 | a non-2xx status throws the method's message and returns nothing; a 2xx status returns exactly the decoded body, null included |
| `ListService.ReceiveNothing` | src/Todo.Web/ListService.cs:111-116 | a delete throws its message exactly when the status is not 2xx and otherwise returns unit without reading a body |
| `ListService.ErrorMessageIdentifiesMethod` | src/Todo.Web/ListService.cs:35-237 | the eleven exception messages are pairwise distinct |
| `ListsController.GetLists` | src/web/Controllers/ListsController.cs:19-24 | the store is unchanged. A failed read gives "Error retreiving lists", a 2xx `null` answer makes it return `Ok(null)`, and otherwise the result is 200 with the upstream's page for exactly the given skip and batchSize |
| `ListsController.CreateList` | src/web/Controllers/ListsController.cs:26-38 | the list sent has the body's name and description, created now, no id. A failed insert gives "Error adding list" and no write; a 2xx `null` answer makes it return `CreatedAtAction` with a null id and a `null` value. Otherwise it is stored under the generated id, the store growing by one exactly when that id is fresh, and the result is 201 at `GetList` with that id, carrying the stored list |
| `ListsController.GetList` | src/web/Controllers/ListsController.cs:40-48 | the store is unchanged. For a plain list id: a failed read gives "Error retreiving list" and a 2xx `null` answer gives 404. A present list is returned with 200; an absent one gives 404 under a null-answering upstream and the proxy's error under a 404-answering one |
| `ListsController.UpdateList` | src/web/Controllers/ListsController.cs:50-67 | for a plain list id, a failed or negative list check gives its outcome and no write. A failed update gives "Error updating list", a 2xx `null` answer makes it return `Ok(null)`. Otherwise only name, description and update stamp (now) are replaced, keeping id and creation date, and nothing else in the store changes |
| `ListsController.DeleteList` | src/web/Controllers/ListsController.cs:69-82 | for a plain list id, a failed or negative list check gives its outcome and no write. A failed delete gives "Error deleting list" and a 2xx answer that deletes nothing still returns `NoContent`. Otherwise the list is removed, all items left in place, and the result is 204 |
| `ListsController.GetListItems` | src/web/Controllers/ListsController.cs:84-94 | the store is unchanged. For a plain list id, a failed or negative list check gives its outcome. A failed read gives "Error retreiving items", a 2xx `null` answer makes it return `Ok(null)`, and otherwise the result is 200 with the upstream's page of that list for exactly the given skip and batchSize |
| `ListsController.CreateListItem` | src/web/Controllers/ListsController.cs:96-116 | for a plain list id, a failed or negative list check gives its outcome and no write. The item sent has the route's list id, the body's name, description and state, created now, no due or completion date. A failed insert gives "Error adding item", a 2xx `null` answer makes it return `CreatedAtAction` with a null item id and a `null` value. Otherwise it is stored under the generated id, the store growing by one exactly when that id is fresh in the list, and the result is 201 at `GetListItem` |
| `ListsController.GetListItem` | src/web/Controllers/ListsController.cs:118-131 | the store is unchanged. For a plain list id the list is checked, then (for a plain item id) the item, each check failing with its own message or giving 404 on a 2xx `null` answer. A present item is returned with 200; an absent one gives the item's not-found outcome |
| `ListsController.UpdateListItem` | src/web/Controllers/ListsController.cs:133-154 | for plain ids: only the item is checked. A failed update gives "Error updating item", a 2xx `null` answer makes it return `Ok(null)`. Otherwise name, description, completion and due date, state and update stamp (now) are replaced, keeping ids and creation date, and nothing else changes |
| `ListsController.DeleteListItem` | src/web/Controllers/ListsController.cs:156-169 | for plain ids: only the item is checked. A failed delete gives "Error deleting item" and a 2xx answer that deletes nothing still returns `NoContent`; otherwise the item is removed and the result is 204 |
| `ListsController.GetListItemsByState` | src/web/Controllers/ListsController.cs:171-182 | the store is unchanged. For a plain list id, a failed or negative list check gives its outcome. A failed read gives "Error retreiving items by state", a 2xx `null` answer makes it return `Ok(null)`, and otherwise, for a plain state, the result is 200 with the upstream's page for exactly that list, that state string and that skip and batchSize |
| `ListsController.Step` | src/web/Controllers/ListsController.cs:19-182 | the five read actions never change the store |
| `ListsController.DraftsAreConstructed` | src/web/Controllers/ListsController.cs:30-33 | the entities the two creations send are the constructors' results with the body's fields set, so neither has an id or update stamp and the item has no due or completion date |
| `ListsController.StepPreservesValid` | src/web/Controllers/ListsController.cs:26-169 | every action keeps each stored list and item under its own ids, whichever requests the upstream fails |
| `ListsController.ListReadNotFound` | src/web/Controllers/ListsController.cs:40-94 | for a plain list id, reading a list, or listing its items, gives 404 exactly when the list's check returns null (an absent list under a null-answering upstream, or a 2xx `null` answer to the check) |
| `ListsController.ListWriteNotFound` | src/web/Controllers/ListsController.cs:50-116 | for a plain list id, updating or deleting a list, or creating an item in it, gives 404 exactly when the list's check returns null |
| `ListsController.ItemWriteNotFound` | src/web/Controllers/ListsController.cs:133-169 | for plain ids, updating or deleting an item gives 404 exactly when the item's check returns null |
| `ListsController.ItemReadNotFound` | src/web/Controllers/ListsController.cs:118-131 | for plain ids, reading an item gives 404 exactly when the list's check returns null, or the list is found and the item's check returns null |
| `ListsController.NotFoundNeedsNullBody` | src/web/Controllers/ListsController.cs:45-47 | when every route argument is plain, an action yields 404 only if one of its existence checks returned null (an absent id under a null-answering upstream, or a 2xx `null` answer to the check), and always does when its first check returns null |
| `ListsController.FirstCheckDecides` | src/web/Controllers/ListsController.cs:40-169 | for the eight actions with a single existence check and plain route arguments, 404 comes exactly when that check returns null |
| `ListsController.MissingListIsError` | src/web/Controllers/ListsController.cs:45-47 | with a 404-answering upstream, reading or deleting an unknown list with a plain id fails with "Error retreiving list" and changes nothing |
| `ListsController.DeletedListOrphansItems` | src/web/Controllers/ListsController.cs:72-168 | for plain ids, deleting a list keeps its items. Afterwards they can no longer be listed or read through the list. When the upstream's item routes do not look at the list, they can still be updated and deleted, since those actions check only the item |
| `ListsController.OrphanReachableByItem` | src/web/Controllers/ListsController.cs:84-168 | an item whose list is absent, under an upstream whose item routes do not look at the list, gives 404 when its list's items are listed or it is read through the list, yet it is updated and deleted normally |
| `ListsController.DeletedListHidesItems` | src/web/Controllers/ListsController.cs:133-168 | for plain ids, when the upstream's item routes do look at the list, updating or deleting an item of a deleted list gives 404 and changes nothing |
| `ListsController.CreatedListIsReadable` | src/web/Controllers/ListsController.cs:28-47 | a list just created is read back under its new id, when that id is plain, with the body's name and description, created now and never updated |
| `ListsController.CreatedItemLifecycle` | src/web/Controllers/ListsController.cs:99-153 | for plain list and item ids, an item created under an existing list is read back through it; a later update sets its state and update stamp and keeps its ids and creation date |

## Left out

- HTTP transport, async/await and the `HttpClient`: a request is a value and the upstream answers it synchronously.
- JSON. Serialization is the identity on entities. A malformed body (which would throw a `JsonException`) is not modelled. The `Content-Type` header and UTF-8 encoding of request bodies are not modelled.
- The upstream API service. `Api` is a reference store, not its code. Its pagination, state filtering and id generation are opaque parameters, and it performs no validation of its own.
- Upstream failures are a status and nothing else: a failed request carries no body and never changes the store, so a write the upstream performs and then reports as failed is not represented.
- The API base URL read from configuration in the `ListService` constructor: it is the parameter `base`.
- The `Location` header URL built by `CreatedAtAction`: only the action's route values are modelled.
- Framework model binding and validation (a missing `name` rejected with 400 before the action runs).
- Concurrency. Each action is one atomic step, so the race between an existence check and the mutation after it is not represented.
- Clock reads. `now` is one instant per action, so the two `UtcNow` reads in item creation (initialiser and assignment) coincide. No timestamp arithmetic is modelled.
- Empty 2xx bodies. A 2xx answer with an empty body makes `ReadFromJsonAsync` throw in every method that reads a body (all but the two deletes); an upstream answer is modelled as a decoded value or JSON `null`, so that exception is not modelled.
- How the framework executes an action's result. The model stops at the returned `ActionResult`: that `Ok(null)` is written as 204 by the default output formatters, and that `CreatedAtAction` with a null route id throws while building the `Location` URL, are not modelled.
- URL normalisation by `System.Uri`: dot segments are removed, a backslash becomes '/', and whitespace at the end of the URL is trimmed. The URL reader does not model this. Arguments it could rewrite are excluded from plain segments, as are empty arguments, which leave no segment and so no route argument, and tab, CR and LF anywhere. The round trip says nothing about any of them.
- Lenient query binding. The upstream's binder ignores query keys it does not know and leaves a missing `skip` or `batchSize` null; `ParseUrl` reads only the exact `skip=…&batchSize=…` form the proxy writes, and reads anything else after a '?' as no request.
- Route arguments that are not plain segments. The controller receives its route values already percent-decoded, so they can hold '#', '?', '/' and the rest, and the proxy interpolates them unescaped. The upstream then receives some other request: `FragmentRedirectsCall` shows an id "a#b" read as "a". The model's actions nevertheless hand the upstream the call they built, with the argument intact, so their contracts, and the lemmas built on them, promise nothing for a non-plain argument. Each is named below.
- Percent-encoding. Route arguments are interpolated unescaped and the URL reader does no percent-decoding, so the round trip is stated only for arguments without '%' (and without '/', '?', '#').
- Http.IntText: renders a negative number with the invariant culture's '-'; a culture with another negative sign is not modelled.
- Integer width. `skip` and `batchSize` are unbounded integers; the 32-bit range of `int?` only limits what values exist, and they are only formatted.
- The weather-forecast scaffold controller, both `Program.cs` hosting files and the two client configuration files: hosting glue and constants with no logic.
- ListsController.GetList: states nothing but the unchanged store for a non-plain list id, where the source reads another list or none.
- ListsController.UpdateList: states nothing for a non-plain list id, where the source checks, and can update, another list.
- ListsController.DeleteList: states nothing for a non-plain list id, where the source checks, and can delete, another list (for "a#b", list "a").
- ListsController.GetListItems: states nothing but the unchanged store for a non-plain list id.
- ListsController.CreateListItem: states nothing for a non-plain list id, where the source checks one list and posts to another URL.
- ListsController.GetListItem: states nothing but the unchanged store for a non-plain list id, and nothing about the item's check for a non-plain item id.
- ListsController.UpdateListItem: states nothing for a non-plain list or item id, where the source checks, and can update, another item.
- ListsController.DeleteListItem: states nothing for a non-plain list or item id, where the source checks, and can delete, another item.
- ListsController.GetListItemsByState: states nothing but the unchanged store for a non-plain list id, and nothing about the page for a non-plain state, which the source cuts (`FragmentTruncatesState`).
- ListsController.ListReadNotFound: stated for a plain list id; so are `ListWriteNotFound`, `FirstCheckDecides` and `MissingListIsError`.
- ListsController.ItemWriteNotFound: stated for plain list and item ids; so are `ItemReadNotFound` and `NotFoundNeedsNullBody` (every route argument plain).
- ListsController.DeletedListOrphansItems: stated for plain ids, as are `DeletedListHidesItems`, `OrphanReachableByItem`, `CreatedListIsReadable` (its read-back) and `CreatedItemLifecycle`.
- ListsController.UpdateList: the write after a successful check is stated for a store whose lists carry their own key (`Valid`); the update is routed by the stored list's id, so in any other store it can land elsewhere.
- ListsController.UpdateListItem: likewise stated for a `Valid` store, where the stored item's ids are the route's.
- ListsController.DeletedListOrphansItems: stated for an upstream that fails no request (`Reliable`), as are `DeletedListHidesItems`, `CreatedListIsReadable` and `CreatedItemLifecycle`; each action's own contract covers the failing cases.

=== FILE: api.dfy ===
/**
 * The upstream API the proxy talks to, as a store of lists and items.
 *
 * The upstream service's own code is not part of this model; this module is a
 * reference for it, following the REST contract the proxy relies on. What that
 * contract leaves open is a parameter of `Upstream`: how an absent id is
 * answered (`Miss`), whether item routes also require their list to exist,
 * which requests fail outright, how ids are generated, and which page of a
 * collection a query selects.
 */
module Api {
  import opened Wrappers
  import opened Models
  import opened Http
  import opened ListService

  /** Lists by id, and items by (list id, item id). Deleting a list does not touch its items. */
  datatype Store = Store(lists: map<string, TodoList>, items: map<(string, string), TodoItem>)

  /** Every stored entity carries the key it is stored under. */
  predicate Valid(s: Store) {
    && (forall l | l in s.lists :: s.lists[l].id == Some(l))
    && (forall k | k in s.items :: s.items[k].listId == k.0 && s.items[k].id == Some(k.1))
  }

  /**
   * How the upstream answers a request for an id it does not hold: a 2xx
   * status with a JSON `null` body, or a 404 status.
   */
  datatype Miss = NullBody | NotFoundStatus

  /**
   * The choices the upstream's contract leaves open.
   *
   * `checksParentList`: whether an item route also answers "absent" when the
   * list in its path is absent (items outlive their list in the store).
   * `fault`: the requests the upstream fails, in a given store, with the
   * status it answers. A failed request changes nothing and carries no
   * entity: a 2xx fault status is a success whose body is JSON `null`, which
   * the proxy returns as `null`.
   */
  datatype Upstream = Upstream(
    miss: Miss,
    checksParentList: bool,
    fault: (Store, Request) -> Option<int>,
    newListId: Store -> string,
    newItemId: Store -> string,
    listPage: (Store, Page) -> seq<TodoList>,
    itemPage: (Store, string, Option<string>, Page) -> seq<TodoItem>)

  /** An upstream that fails no request. */
  ghost predicate Reliable(up: Upstream) {
    forall s, req :: up.fault(s, req) == None
  }

  /** The list `l` is known to an item route: it exists, or item routes do not look. */
  predicate ParentKnown(up: Upstream, s: Store, l: string) {
    up.checksParentList ==> l in s.lists
  }

  /** What an item route treats as present: the item, under a known list. */
  predicate ItemPresent(up: Upstream, s: Store, l: string, i: string) {
    (l, i) in s.items && ParentKnown(up, s, l)
  }

  /** The id the upstream gives the next list is not yet in use. */
  predicate FreshListId(up: Upstream, s: Store) {
    up.newListId(s) !in s.lists
  }

  /** The id the upstream gives the next item of list `l` is not yet in use there. */
  predicate FreshItemId(up: Upstream, s: Store, l: string) {
    (l, up.newItemId(s)) !in s.items
  }

  /** The answer for an absent id. */
  function Missing<T>(m: Miss): (r: Response<T>)
    ensures r.body == None
    ensures IsSuccessStatusCode(r.status) <==> m == NullBody
  {
    match m
    case NullBody => Response(200, None)
    case NotFoundStatus => Response(404, None)
  }

  /** The answer to a request no route accepts. */
  function NoRoute<T>(): (r: Response<T>)
    ensures !IsSuccessStatusCode(r.status)
  {
    Response(404, None)
  }

  /** Requests answered with a single list: read, insert and replace. */
  function ServeList(up: Upstream, s: Store, req: Request): (Store, Response<TodoList>) {
    match up.fault(s, req)
    case Some(status) => (s, Response(status, None))
    case None =>
      match Interpret(req)
      case Some(GetListCall(l)) =>
        (s, if l in s.lists then Response(200, Some(s.lists[l])) else Missing(up.miss))
      case Some(AddListCall(list)) =>
        var id := up.newListId(s);
        var stored := list.(id := Some(id));
        (s.(lists := s.lists[id := stored]), Response(201, Some(stored)))
      case Some(UpdateListCall(list)) =>
        var l := IdText(list.id);
        if l in s.lists then (s.(lists := s.lists[l := list]), Response(200, Some(list)))
        else (s, Missing(up.miss))
      case _ => (s, NoRoute())
  }

  /** Requests answered with a page of lists. */
  function ServeLists(up: Upstream, s: Store, req: Request): (Store, Response<seq<TodoList>>) {
    match up.fault(s, req)
    case Some(status) => (s, Response(status, None))
    case None =>
      match Interpret(req)
      case Some(GetListsCall(skip, batchSize)) => (s, Response(200, Some(up.listPage(s, Page(skip, batchSize)))))
      case _ => (s, NoRoute())
  }

  /** Requests answered with a single item: read, insert and replace. */
  function ServeItem(up: Upstream, s: Store, req: Request): (Store, Response<TodoItem>) {
    match up.fault(s, req)
    case Some(status) => (s, Response(status, None))
    case None =>
      match Interpret(req)
      case Some(GetListItemCall(l, i)) =>
        (s, if ItemPresent(up, s, l, i) then Response(200, Some(s.items[(l, i)])) else Missing(up.miss))
      case Some(AddListItemCall(item)) =>
        if ParentKnown(up, s, item.listId) then
          var id := up.newItemId(s);
          var stored := item.(id := Some(id));
          (s.(items := s.items[(item.listId, id) := stored]), Response(201, Some(stored)))
        else (s, Missing(up.miss))
      case Some(UpdateListItemCall(item)) =>
        var (l, i) := (item.listId, IdText(item.id));
        if ItemPresent(up, s, l, i) then (s.(items := s.items[(l, i) := item]), Response(200, Some(item)))
        else (s, Missing(up.miss))
      case _ => (s, NoRoute())
  }

  /** Requests answered with a page of items, optionally filtered by state. */
  function ServeItems(up: Upstream, s: Store, req: Request): (Store, Response<seq<TodoItem>>) {
    match up.fault(s, req)
    case Some(status) => (s, Response(status, None))
    case None =>
      match Interpret(req)
      case Some(GetListItemsCall(l, skip, batchSize)) =>
        (s, if ParentKnown(up, s, l) then Response(200, Some(up.itemPage(s, l, None, Page(skip, batchSize))))
            else Missing(up.miss))
      case Some(GetListItemsByStateCall(l, st, skip, batchSize)) =>
        (s, if ParentKnown(up, s, l) then Response(200, Some(up.itemPage(s, l, Some(st), Page(skip, batchSize))))
            else Missing(up.miss))
      case _ => (s, NoRoute())
  }

  /** Deletions, answered without a body. */
  function ServeDelete(up: Upstream, s: Store, req: Request): (Store, Response<()>) {
    match up.fault(s, req)
    case Some(status) => (s, Response(status, None))
    case None =>
      match Interpret(req)
      case Some(DeleteListCall(l)) =>
        if l in s.lists then (s.(lists := s.lists - {l}), Response(204, None)) else (s, Missing(up.miss))
      case Some(DeleteListItemCall(l, i)) =>
        if ItemPresent(up, s, l, i) then (s.(items := s.items - {(l, i)}), Response(204, None))
        else (s, Missing(up.miss))
      case _ => (s, NoRoute())
  }
}

=== FILE: http.dfy ===
/**
 * The HTTP surface the front end's proxy speaks to the upstream API: verbs,
 * resource paths, the pagination query, requests and responses, and the text
 * of a request URL.
 *
 * Route arguments are interpolated into the URL verbatim (no escaping) and an
 * absent optional integer interpolates as the empty string. `ParseUrl` is the
 * upstream's reading of such a URL; `UrlRoundTrip` proves it recovers the path
 * and the query whenever every path argument is a plain segment (`PlainSegment`:
 * non-empty, no '/', backslash, '?', '#', '%', tab, CR or LF, no trailing
 * space, and not a dot segment), and
 * `UnescapedIdCollision` shows a list id that does contain '/' addressing an
 * item instead.
 */
module Http {
  import opened Wrappers
  import opened Models

  datatype Verb = Get | Post | Put | Delete

  /** The resource a request addresses, below the configured API base URL. */
  datatype Path =
    | ListsPath
    | ListPath(listId: string)
    | ItemsPath(listId: string)
    | ItemPath(listId: string, itemId: string)
    | StatePath(listId: string, state: string)

  /** The pagination window of a collection query; both bounds are optional. */
  datatype Page = Page(skip: Option<int>, batchSize: Option<int>)

  /** A JSON request body: the serialized entity. */
  datatype Json = ListJson(list: TodoList) | ItemJson(item: TodoItem)

  /**
   * An outbound request. `query` is present on collection reads only; `accept`
   * records whether an `Accept: application/json` header is sent.
   */
  datatype Request = Request(verb: Verb, path: Path, query: Option<Page>, accept: bool, body: Option<Json>)

  /** An upstream response: a status code and the decoded JSON body (`None` for `null`). */
  datatype Response<T> = Response(status: int, body: Option<T>)

  /** `HttpResponseMessage.IsSuccessStatusCode`: a status in the 2xx range. */
  predicate IsSuccessStatusCode(status: int) {
    200 <= status <= 299
  }

  // ---------------------------------------------------------------- rendering

  function DigitChar(d: int): (c: char)
    requires 0 <= d < 10
    ensures IsDigit(c)
  {
    "0123456789"[d]
  }

  predicate IsDigit(c: char) {
    '0' <= c <= '9'
  }

  /** The decimal digits of `n`, most significant first, without leading zeros. */
  function Digits(n: nat): (s: string)
    ensures |s| > 0
    ensures forall i :: 0 <= i < |s| ==> IsDigit(s[i])
    decreases n
  {
    if n < 10 then [DigitChar(n)] else Digits(n / 10) + [DigitChar(n % 10)]
  }

  /** Decimal digits, optionally after a leading minus sign. */
  predicate IsNumeral(s: string) {
    forall i :: 0 <= i < |s| ==> IsDigit(s[i]) || (i == 0 && s[i] == '-')
  }

  /** An `int` as string interpolation writes it (invariant culture). */
  function IntText(x: int): (s: string)
    ensures |s| > 0 && IsNumeral(s)
    ensures s[0] == '-' <==> x < 0
  {
    if x < 0 then "-" + Digits(-x) else Digits(x)
  }

  /** An `int?` as string interpolation writes it: `null` becomes the empty string. */
  function OptionalText(x: Option<int>): (s: string)
    ensures IsNumeral(s)
    ensures s == "" <==> x.None?
  {
    match x
    case None => ""
    case Some(v) => IntText(v)
  }

  /** A numeral holds none of the delimiters of a URL. */
  lemma NumeralHasNoDelimiter(s: string)
    requires IsNumeral(s)
    ensures '&' !in s && '?' !in s && '/' !in s && '#' !in s
  {
    forall i | 0 <= i < |s|
      ensures s[i] != '&' && s[i] != '?' && s[i] != '/' && s[i] != '#'
    {
    }
  }

  /**
   * `?skip={skip}&batchSize={batchSize}`: both keys are always written, and
   * apart from its leading '?' the query holds no '?', '/' or '#'.
   */
  function QueryText(p: Page): (q: string)
    ensures |q| > 10 && q[..6] == "?skip="
    ensures '?' !in q[1..] && '/' !in q && '#' !in q
  {
    QueryShape(OptionalText(p.skip), OptionalText(p.batchSize));
    "?skip=" + OptionalText(p.skip) + "&batchSize=" + OptionalText(p.batchSize)
  }

  lemma QueryShape(a: string, b: string)
    requires IsNumeral(a) && IsNumeral(b)
    ensures var q := "?skip=" + a + "&batchSize=" + b;
      && |q| > 10 && q[..6] == "?skip=" && '?' !in q[1..] && '/' !in q && '#' !in q
      && q[1..] == ("skip=" + a) + ['&'] + ("batchSize=" + b)
  {
    QueryLayout(a, b);
    QueryDelimiters(a, b);
  }

  lemma QueryLayout(a: string, b: string)
    ensures var q := "?skip=" + a + "&batchSize=" + b;
      && q == ['?'] + (("skip=" + a) + ['&'] + ("batchSize=" + b))
      && |q| > 10 && q[..6] == "?skip="
  {
    var q := "?skip=" + a + "&batchSize=" + b;
    assert q == ['?'] + (("skip=" + a) + ['&'] + ("batchSize=" + b));
    assert q[..6] == "?skip=";
  }

  lemma QueryDelimiters(a: string, b: string)
    requires IsNumeral(a) && IsNumeral(b)
    ensures var rest := ("skip=" + a) + ['&'] + ("batchSize=" + b);
      '?' !in rest && '/' !in rest && '#' !in rest
  {
    NumeralHasNoDelimiter(a);
    NumeralHasNoDelimiter(b);
    var k1 := "skip=";
    var k2 := "batchSize=";
    assert '?' !in k1 && '/' !in k1 && '#' !in k1;
    assert '?' !in k2 && '/' !in k2 && '#' !in k2;
  }

  /** The path text of a resource: every path starts with "/lists" and a plain one holds no '?' or '#'. */
  function PathText(p: Path): (t: string)
    ensures |t| >= 6 && t[..6] == "/lists"
    ensures PlainPath(p) ==> '?' !in t && '#' !in t
  {
    match p
    case ListsPath => "/lists"
    case ListPath(l) => "/lists/" + l
    case ItemsPath(l) => "/lists/" + l + "/items"
    case ItemPath(l, i) => "/lists/" + l + "/items/" + i
    case StatePath(l, st) => "/lists/" + l + "/state/" + st
  }

  /** The text after `base` in a URL: the path, then the query if there is one. */
  function AfterBase(path: Path, query: Option<Page>): string {
    PathText(path) + (match query case None => "" case Some(p) => QueryText(p))
  }

  /** The absolute URL of a request to the API at `base`; the upstream strips `base` back off. */
  function Url(base: string, path: Path, query: Option<Page>): (u: string)
    ensures WithPrefix(u, base) == Some(AfterBase(path, query))
  {
    PrefixStripped(base, AfterBase(path, query));
    base + AfterBase(path, query)
  }

  function RequestUrl(base: string, r: Request): string {
    Url(base, r.path, r.query)
  }

  // ------------------------------------------------------------------ parsing

  function DigitValue(c: char): Option<nat> {
    if IsDigit(c) then Some(c as int - '0' as int) else None
  }

  /** A non-empty run of decimal digits, read most significant first. */
  function ParseDigits(s: string): Option<nat>
    decreases |s|
  {
    if |s| == 0 then None
    else if |s| == 1 then DigitValue(s[0])
    else
      match (ParseDigits(s[..|s| - 1]), DigitValue(s[|s| - 1]))
      case (Some(h), Some(d)) => Some(h * 10 + d)
      case _ => None
  }

  function ParseInt(s: string): Option<int> {
    if |s| > 0 && s[0] == '-' then
      match ParseDigits(s[1..])
      case Some(m) => Some(0 - m)
      case None => None
    else
      match ParseDigits(s)
      case Some(m) => Some(m)
      case None => None
  }

  /** The reading of an `int?` query value: empty means absent. */
  function ParseOptional(s: string): Option<Option<int>> {
    if s == "" then Some(None)
    else
      match ParseInt(s)
      case Some(v) => Some(Some(v))
      case None => None
  }

  /** `s` split at the first `c`: the part before, and the part after if `c` occurs. */
  function Cut(s: string, c: char): (string, Option<string>)
    decreases |s|
  {
    if s == [] then ([], None)
    else if s[0] == c then ([], Some(s[1..]))
    else
      var (before, after) := Cut(s[1..], c);
      ([s[0]] + before, after)
  }

  /** `s` split at every '/'. */
  function Split(s: string): (r: seq<string>)
    ensures |r| > 0
    decreases |s|
  {
    if s == [] then [""]
    else
      var rest := Split(s[1..]);
      if s[0] == '/' then [""] + rest else [[s[0]] + rest[0]] + rest[1..]
  }

  function ParseSegments(segs: seq<string>): Option<Path> {
    if |segs| < 2 || segs[0] != "" || segs[1] != "lists" then None
    else if |segs| == 2 then Some(ListsPath)
    else if |segs| == 3 then Some(ListPath(segs[2]))
    else if |segs| == 4 && segs[3] == "items" then Some(ItemsPath(segs[2]))
    else if |segs| == 5 && segs[3] == "items" then Some(ItemPath(segs[2], segs[4]))
    else if |segs| == 5 && segs[3] == "state" then Some(StatePath(segs[2], segs[4]))
    else None
  }

  function WithPrefix(s: string, prefix: string): Option<string> {
    if |prefix| <= |s| && s[..|prefix|] == prefix then Some(s[|prefix|..]) else None
  }

  lemma PrefixStripped(prefix: string, t: string)
    ensures WithPrefix(prefix + t, prefix) == Some(t)
  {
    assert (prefix + t)[..|prefix|] == prefix;
    assert (prefix + t)[|prefix|..] == t;
  }

  /** `skip=…&batchSize=…`, the text after the '?'. */
  function ParsePage(q: string): Option<Page> {
    match Cut(q, '&')
    case (first, Some(second)) =>
      (match (WithPrefix(first, "skip="), WithPrefix(second, "batchSize="))
       case (Some(a), Some(b)) =>
         (match (ParseOptional(a), ParseOptional(b))
          case (Some(skip), Some(batchSize)) => Some(Page(skip, batchSize))
          case _ => None)
       case _ => None)
    case _ => None
  }

  /**
   * The upstream's reading of a URL below `base`: the path and the query, if
   * well formed. A fragment ('#' onward) never reaches the server and is
   * dropped; no percent-decoding is done.
   */
  function ParseUrl(base: string, url: string): Option<(Path, Option<Page>)> {
    match WithPrefix(url, base)
    case None => None
    case Some(rest) =>
      var (sent, _) := Cut(rest, '#');
      var (pathText, queryText) := Cut(sent, '?');
      match ParseSegments(Split(pathText))
      case None => None
      case Some(path) =>
        match queryText
        case None => Some((path, None))
        case Some(q) =>
          match ParsePage(q)
          case Some(p) => Some((path, Some(p)))
          case None => None
  }

  // ------------------------------------------------------------- round trips

  /**
   * A path argument that interpolates into exactly one non-empty path segment
   * and reaches the upstream unchanged: no segment separator (a backslash is
   * read as one too), no query or fragment start, no percent escape, not a dot
   * segment, which URL normalisation removes, no tab, CR or LF, and no space at
   * the end, where it would be trimmed from a URL that ends there.
   */
  predicate PlainSegment(s: string) {
    && s != "" && s != "." && s != ".."
    && '/' !in s && '\\' !in s && '?' !in s && '#' !in s && '%' !in s
    && '\t' !in s && '\r' !in s && '\n' !in s
    && s[|s| - 1] != ' '
  }

  predicate PlainPath(p: Path) {
    match p
    case ListsPath => true
    case ListPath(l) => PlainSegment(l)
    case ItemsPath(l) => PlainSegment(l)
    case ItemPath(l, i) => PlainSegment(l) && PlainSegment(i)
    case StatePath(l, st) => PlainSegment(l) && PlainSegment(st)
  }

  lemma {:induction false} DigitsRoundTrip(n: nat)
    ensures ParseDigits(Digits(n)) == Some(n)
    decreases n
  {
    if n >= 10 {
      var s := Digits(n);
      assert s == Digits(n / 10) + [DigitChar(n % 10)];
      assert s[..|s| - 1] == Digits(n / 10);
      DigitsRoundTrip(n / 10);
    }
  }

  lemma IntRoundTrip(x: int)
    ensures ParseInt(IntText(x)) == Some(x)
  {
    if x < 0 {
      var d := Digits(-x);
      var s := "-" + d;
      assert IntText(x) == s;
      assert s[0] == '-' && s[1..] == d;
      DigitsRoundTrip(-x);
    } else {
      var d := Digits(x);
      assert IntText(x) == d;
      assert IsDigit(d[0]);
      DigitsRoundTrip(x);
    }
  }

  lemma OptionalRoundTrip(x: Option<int>)
    ensures ParseOptional(OptionalText(x)) == Some(x)
  {
    if x.Some? {
      IntRoundTrip(x.value);
    }
  }

  lemma {:induction false} CutAtFirst(a: string, c: char, b: string)
    requires c !in a
    ensures Cut(a + [c] + b, c) == (a, Some(b))
    decreases |a|
  {
    if a != [] {
      assert (a + [c] + b)[0] == a[0] != c;
      assert (a + [c] + b)[1..] == a[1..] + [c] + b;
      CutAtFirst(a[1..], c, b);
      assert [a[0]] + a[1..] == a;
    } else {
      assert a + [c] + b == [c] + b;
    }
  }

  lemma {:induction false} CutAbsent(a: string, c: char)
    requires c !in a
    ensures Cut(a, c) == (a, None)
    decreases |a|
  {
    if a != [] {
      CutAbsent(a[1..], c);
      assert [a[0]] + a[1..] == a;
    }
  }

  lemma {:induction false} SplitSegment(a: string)
    requires '/' !in a
    ensures Split(a) == [a]
    decreases |a|
  {
    if a != [] {
      SplitSegment(a[1..]);
      assert [a[0]] + a[1..] == a;
    }
  }

  lemma {:induction false} SplitCons(a: string, t: string)
    requires '/' !in a
    ensures Split(a + "/" + t) == [a] + Split(t)
    decreases |a|
  {
    if a == [] {
      assert a + "/" + t == "/" + t;
      assert ("/" + t)[1..] == t;
    } else {
      assert (a + "/" + t)[1..] == a[1..] + "/" + t;
      SplitCons(a[1..], t);
      assert [a[0]] + a[1..] == a;
    }
  }

  /** The segments of "/lists/" followed by the segments `tail` already split. */
  lemma {:induction false} ListsPrefix(t: string)
    ensures Split("/lists/" + t) == ["", "lists"] + Split(t)
  {
    assert "/lists/" + t == "" + "/" + ("lists" + "/" + t);
    SplitCons("lists", t);
    SplitCons("", "lists" + "/" + t);
  }

  lemma {:induction false} TwoSegments(a: string, b: string, c: string)
    requires '/' !in a && '/' !in b && '/' !in c
    ensures Split(a + "/" + b + "/" + c) == [a, b, c]
  {
    assert a + "/" + b + "/" + c == a + "/" + (b + "/" + c);
    SplitSegment(c);
    SplitCons(b, c);
    SplitCons(a, b + "/" + c);
  }

  /** The segments a plain path renders to. */
  function SegmentsOf(p: Path): seq<string> {
    match p
    case ListsPath => ["", "lists"]
    case ListPath(l) => ["", "lists", l]
    case ItemsPath(l) => ["", "lists", l, "items"]
    case ItemPath(l, i) => ["", "lists", l, "items", i]
    case StatePath(l, st) => ["", "lists", l, "state", st]
  }

  lemma SplitListsPath()
    ensures Split(PathText(ListsPath)) == ["", "lists"]
  {
    assert PathText(ListsPath) == "" + "/" + "lists";
    SplitSegment("lists");
    SplitCons("", "lists");
  }

  lemma SplitItemsPath(l: string)
    requires '/' !in l
    ensures Split(PathText(ItemsPath(l))) == ["", "lists", l, "items"]
  {
    var t := l + "/" + "items";
    assert PathText(ItemsPath(l)) == "/lists/" + t;
    ListsPrefix(t);
    SplitSegment("items");
    SplitCons(l, "items");
  }

  lemma SplitItemPath(l: string, i: string)
    requires '/' !in l && '/' !in i
    ensures Split(PathText(ItemPath(l, i))) == ["", "lists", l, "items", i]
  {
    var t := l + "/" + "items" + "/" + i;
    assert PathText(ItemPath(l, i)) == "/lists/" + t;
    ListsPrefix(t);
    TwoSegments(l, "items", i);
  }

  lemma SplitStatePath(l: string, st: string)
    requires '/' !in l && '/' !in st
    ensures Split(PathText(StatePath(l, st))) == ["", "lists", l, "state", st]
  {
    var t := l + "/" + "state" + "/" + st;
    assert PathText(StatePath(l, st)) == "/lists/" + t;
    ListsPrefix(t);
    TwoSegments(l, "state", st);
  }

  lemma SplitPathText(p: Path)
    requires PlainPath(p)
    ensures Split(PathText(p)) == SegmentsOf(p)
  {
    match p
    case ListsPath => SplitListsPath();
    case ListPath(l) =>
      ListsPrefix(l);
      SplitSegment(l);
    case ItemsPath(l) => SplitItemsPath(l);
    case ItemPath(l, i) => SplitItemPath(l, i);
    case StatePath(l, st) => SplitStatePath(l, st);
  }

  lemma ParseSegmentsOf(p: Path)
    ensures ParseSegments(SegmentsOf(p)) == Some(p)
  {
  }

  lemma PathSegments(p: Path)
    requires PlainPath(p)
    ensures ParseSegments(Split(PathText(p))) == Some(p)
  {
    SplitPathText(p);
    ParseSegmentsOf(p);
  }

  lemma PageRoundTrip(p: Page)
    ensures ParsePage(QueryText(p)[1..]) == Some(p)
  {
    var a := OptionalText(p.skip);
    var b := OptionalText(p.batchSize);
    QueryShape(a, b);
    NumeralHasNoDelimiter(a);
    OptionalRoundTrip(p.skip);
    OptionalRoundTrip(p.batchSize);
    PageFields(a, b);
  }

  /** The two keyed fields of a query are cut apart at the '&' and read separately. */
  lemma PageFields(a: string, b: string)
    requires '&' !in a
    ensures ParsePage(("skip=" + a) + ['&'] + ("batchSize=" + b)) ==
      match (ParseOptional(a), ParseOptional(b))
      case (Some(skip), Some(batchSize)) => Some(Page(skip, batchSize))
      case _ => None
  {
    assert '&' !in "skip=" + a;
    CutAtFirst("skip=" + a, '&', "batchSize=" + b);
    PrefixStripped("skip=", a);
    PrefixStripped("batchSize=", b);
  }

  lemma CutBeforeQuery(path: Path, query: Option<Page>)
    requires PlainPath(path)
    ensures Cut(AfterBase(path, query), '?') ==
      (PathText(path), match query case None => None case Some(p) => Some(QueryText(p)[1..]))
  {
    var pt := PathText(path);
    match query
    case None =>
      assert AfterBase(path, query) == pt;
      CutAbsent(pt, '?');
    case Some(p) =>
      CutAtQuery(pt, QueryText(p));
  }

  lemma CutAtQuery(pt: string, qt: string)
    requires '?' !in pt && |qt| > 0 && qt[0] == '?'
    ensures Cut(pt + qt, '?') == (pt, Some(qt[1..]))
  {
    assert pt + qt == pt + ['?'] + qt[1..];
    CutAtFirst(pt, '?', qt[1..]);
  }

  /**
   * The upstream recovers exactly the path and the query the proxy rendered,
   * provided every path argument is a plain segment.
   */
  lemma UrlRoundTrip(base: string, path: Path, query: Option<Page>)
    requires PlainPath(path)
    ensures ParseUrl(base, Url(base, path, query)) == Some((path, query))
  {
    assert '#' !in AfterBase(path, query);
    CutAbsent(AfterBase(path, query), '#');
    CutBeforeQuery(path, query);
    PathSegments(path);
    if query.Some? {
      PageRoundTrip(query.value);
    }
  }

  /**
   * Route arguments are not escaped: the list id "x/items/y" renders the same
   * URL as item "y" of list "x", and the upstream reads it as the latter.
   */
  lemma UnescapedIdCollision(base: string)
    ensures Url(base, ListPath("x/items/y"), None) == Url(base, ItemPath("x", "y"), None)
    ensures ParseUrl(base, Url(base, ListPath("x/items/y"), None)) == Some((ItemPath("x", "y"), None))
  {
    assert "/lists/" + "x/items/y" == "/lists/" + "x" + "/items/" + "y";
    UrlRoundTrip(base, ItemPath("x", "y"), None);
  }

  /** Whether the URL of a path ends in one of its arguments. */
  predicate EndsInArgument(p: Path) {
    p.ListPath? || p.ItemPath? || p.StatePath?
  }

  /** The path with `tail` appended to the argument its URL ends in. */
  function Extended(p: Path, tail: string): (e: Path)
    requires EndsInArgument(p)
    ensures PathText(e) == PathText(p) + tail
  {
    match p
    case ListPath(l) => ListPath(l + tail)
    case ItemPath(l, i) => ItemPath(l, i + tail)
    case StatePath(l, st) => StatePath(l, st + tail)
  }

  /**
   * A '#' in the last path argument starts a fragment: the upstream reads the
   * argument up to the '#' and loses the query, for every plain path.
   */
  lemma FragmentCutsArgument(base: string, path: Path, rest: string, query: Option<Page>)
    requires EndsInArgument(path) && PlainPath(path)
    ensures ParseUrl(base, Url(base, Extended(path, ['#'] + rest), query)) == Some((path, None))
  {
    var sent := PathText(path);
    var e := Extended(path, ['#'] + rest);
    var q := AfterBase(e, query)[|PathText(e)|..];
    assert AfterBase(e, query) == (sent + ['#'] + rest) + q;
    assert Url(base, e, query) == base + (sent + ['#'] + (rest + q));
    PathSegments(path);
    FragmentDropped(base, sent, rest + q, path);
  }

  /**
   * An instance: a state "a#b" reaches the upstream as state "a", and the
   * pagination query after it is lost.
   */
  lemma FragmentTruncatesState(base: string, p: Page)
    ensures ParseUrl(base, Url(base, StatePath("L", "a#b"), Some(p))) == Some((StatePath("L", "a"), None))
  {
    LetterPlain('L');
    LetterPlain('a');
    assert Extended(StatePath("L", "a"), ['#'] + "b") == StatePath("L", "a#b");
    FragmentCutsArgument(base, StatePath("L", "a"), "b", Some(p));
  }

  /** A one-letter argument is a plain segment. */
  lemma LetterPlain(c: char)
    requires 'a' <= c <= 'z' || 'A' <= c <= 'Z'
    ensures PlainSegment([c])
  {
  }

  /** Whatever follows a '#' is ignored, query included. */
  lemma FragmentDropped(base: string, sent: string, tail: string, path: Path)
    requires '#' !in sent && '?' !in sent
    requires ParseSegments(Split(sent)) == Some(path)
    ensures ParseUrl(base, base + (sent + ['#'] + tail)) == Some((path, None))
  {
    PrefixStripped(base, sent + ['#'] + tail);
    CutAtFirst(sent, '#', tail);
    CutAbsent(sent, '?');
  }
}

=== FILE: list_service.dfy ===
/**
 * The front end's proxy to the upstream API (`ListService`). Each of its
 * eleven methods builds one request, sends it, and either returns the decoded
 * response body or throws an exception with a fixed message when the status
 * is not 2xx.
 *
 * A method invocation is a `Call`; `BuildRequest` is the request it sends,
 * `Receive` / `ReceiveNothing` map the response to a returned value or a
 * thrown message. `Interpret` is the upstream's reading of a request, and
 * `InterpretInvertsBuild` proves it recovers exactly the call that was made.
 */
module ListService {
  import opened Wrappers
  import opened Models
  import opened Http

  /** The eleven proxy methods. */
  datatype Method =
    | GetListsAsync
    | GetListAsync
    | AddListAsync
    | UpdateListAsync
    | DeleteListAsync
    | GetListItemsAsync
    | AddListItemAsync
    | GetListItemAsync
    | UpdateListItemAsync
    | DeleteListItemAsync
    | GetListItemsByStateAsync

  /** One invocation of a proxy method, with its arguments. */
  datatype Call =
    | GetListsCall(skip: Option<int>, batchSize: Option<int>)
    | GetListCall(listId: string)
    | AddListCall(list: TodoList)
    | UpdateListCall(list: TodoList)
    | DeleteListCall(listId: string)
    | GetListItemsCall(listId: string, skip: Option<int>, batchSize: Option<int>)
    | AddListItemCall(item: TodoItem)
    | GetListItemCall(listId: string, itemId: string)
    | UpdateListItemCall(item: TodoItem)
    | DeleteListItemCall(listId: string, itemId: string)
    | GetListItemsByStateCall(listId: string, state: string, skip: Option<int>, batchSize: Option<int>)
  {
    function Method(): Method {
      match this
      case GetListsCall(_, _) => GetListsAsync
      case GetListCall(_) => GetListAsync
      case AddListCall(_) => AddListAsync
      case UpdateListCall(_) => UpdateListAsync
      case DeleteListCall(_) => DeleteListAsync
      case GetListItemsCall(_, _, _) => GetListItemsAsync
      case AddListItemCall(_) => AddListItemAsync
      case GetListItemCall(_, _) => GetListItemAsync
      case UpdateListItemCall(_) => UpdateListItemAsync
      case DeleteListItemCall(_, _) => DeleteListItemAsync
      case GetListItemsByStateCall(_, _, _, _) => GetListItemsByStateAsync
    }

    predicate IsDelete() {
      DeleteListCall? || DeleteListItemCall?
    }

    predicate SendsBody() {
      AddListCall? || UpdateListCall? || AddListItemCall? || UpdateListItemCall?
    }

    predicate IsPaged() {
      GetListsCall? || GetListItemsCall? || GetListItemsByStateCall?
    }
  }

  /** What a method returns or throws: the C# exception carries only a message. */
  datatype Outcome<+T> = Value(value: T) | Thrown(message: string)

  /**
   * The exception message each method throws on a non-success status, spelled
   * as in the source: an "Error " sentence from which the method can be read
   * back.
   */
  function ErrorMessage(m: Method): (msg: string)
    ensures |msg| > 6 && msg[..6] == "Error "
    ensures MessageMethod(msg) == Some(m)
  {
    match m
    case GetListsAsync => "Error retreiving lists"
    case GetListAsync => "Error retreiving list"
    case AddListAsync => "Error adding list"
    case UpdateListAsync => "Error updating list"
    case DeleteListAsync => "Error deleting list"
    case GetListItemsAsync => "Error retreiving items"
    case AddListItemAsync => "Error adding item"
    case GetListItemAsync => "Error retreiving item"
    case UpdateListItemAsync => "Error updating item"
    case DeleteListItemAsync => "Error deleting item"
    case GetListItemsByStateAsync => "Error retreiving items by state"
  }

  /** The method a thrown message names, if it is one of the eleven messages. */
  function MessageMethod(msg: string): Option<Method> {
    if msg == "Error retreiving lists" then Some(GetListsAsync)
    else if msg == "Error retreiving list" then Some(GetListAsync)
    else if msg == "Error adding list" then Some(AddListAsync)
    else if msg == "Error updating list" then Some(UpdateListAsync)
    else if msg == "Error deleting list" then Some(DeleteListAsync)
    else if msg == "Error retreiving items" then Some(GetListItemsAsync)
    else if msg == "Error adding item" then Some(AddListItemAsync)
    else if msg == "Error retreiving item" then Some(GetListItemAsync)
    else if msg == "Error updating item" then Some(UpdateListItemAsync)
    else if msg == "Error deleting item" then Some(DeleteListItemAsync)
    else if msg == "Error retreiving items by state" then Some(GetListItemsByStateAsync)
    else None
  }

  /** A nullable id interpolated into a URL: `null` becomes the empty string. */
  function IdText(id: Option<string>): string {
    id.GetOr("")
  }

  /** The request a call sends. */
  function BuildRequest(c: Call): (r: Request)
    ensures Interpret(r) == Some(c)
    ensures r.accept <==> !c.IsDelete()
    ensures r.body.Some? <==> c.SendsBody()
    ensures r.query.Some? <==> c.IsPaged()
    ensures c.IsPaged() ==> r.query == Some(Page(c.skip, c.batchSize))
    ensures c.IsDelete() ==> r.verb == Delete
    ensures c.AddListCall? || c.UpdateListCall? ==> r.body == Some(ListJson(c.list))
    ensures c.AddListItemCall? || c.UpdateListItemCall? ==> r.body == Some(ItemJson(c.item))
    ensures c.UpdateListCall? ==> r.path == ListPath(IdText(c.list.id))
    ensures c.AddListItemCall? ==> r.path == ItemsPath(c.item.listId)
    ensures c.UpdateListItemCall? ==> r.path == ItemPath(c.item.listId, IdText(c.item.id))
  {
    match c
    case GetListsCall(skip, batchSize) =>
      Request(Get, ListsPath, Some(Page(skip, batchSize)), true, None)
    case GetListCall(l) =>
      Request(Get, ListPath(l), None, true, None)
    case AddListCall(list) =>
      Request(Post, ListsPath, None, true, Some(ListJson(list)))
    case UpdateListCall(list) =>
      Request(Put, ListPath(IdText(list.id)), None, true, Some(ListJson(list)))
    case DeleteListCall(l) =>
      Request(Delete, ListPath(l), None, false, None)
    case GetListItemsCall(l, skip, batchSize) =>
      Request(Get, ItemsPath(l), Some(Page(skip, batchSize)), true, None)
    case AddListItemCall(item) =>
      Request(Post, ItemsPath(item.listId), None, true, Some(ItemJson(item)))
    case GetListItemCall(l, i) =>
      Request(Get, ItemPath(l, i), None, true, None)
    case UpdateListItemCall(item) =>
      Request(Put, ItemPath(item.listId, IdText(item.id)), None, true, Some(ItemJson(item)))
    case DeleteListItemCall(l, i) =>
      Request(Delete, ItemPath(l, i), None, false, None)
    case GetListItemsByStateCall(l, st, skip, batchSize) =>
      Request(Get, StatePath(l, st), Some(Page(skip, batchSize)), true, None)
  }

  /**
   * The upstream's reading of a request: which method sent it, with which
   * arguments. Entity-carrying requests must be routed by the entity's own ids.
   */
  function Interpret(r: Request): Option<Call> {
    if r.accept != (r.verb != Delete) then None
    else
      match (r.verb, r.path, r.query, r.body)
      case (Get, ListsPath, Some(p), None) => Some(GetListsCall(p.skip, p.batchSize))
      case (Get, ListPath(l), None, None) => Some(GetListCall(l))
      case (Post, ListsPath, None, Some(ListJson(list))) => Some(AddListCall(list))
      case (Put, ListPath(l), None, Some(ListJson(list))) =>
        if l == IdText(list.id) then Some(UpdateListCall(list)) else None
      case (Delete, ListPath(l), None, None) => Some(DeleteListCall(l))
      case (Get, ItemsPath(l), Some(p), None) => Some(GetListItemsCall(l, p.skip, p.batchSize))
      case (Post, ItemsPath(l), None, Some(ItemJson(item))) =>
        if l == item.listId then Some(AddListItemCall(item)) else None
      case (Get, ItemPath(l, i), None, None) => Some(GetListItemCall(l, i))
      case (Put, ItemPath(l, i), None, Some(ItemJson(item))) =>
        if l == item.listId && i == IdText(item.id) then Some(UpdateListItemCall(item)) else None
      case (Delete, ItemPath(l, i), None, None) => Some(DeleteListItemCall(l, i))
      case (Get, StatePath(l, st), Some(p), None) => Some(GetListItemsByStateCall(l, st, p.skip, p.batchSize))
      case _ => None
  }

  /**
   * The map from a returned body to a method's result for the methods that read
   * one: a non-2xx status throws the method's message and returns nothing;
   * a 2xx status returns the decoded body unchanged, `null` included.
   */
  function Receive<T>(c: Call, r: Response<T>): (o: Outcome<Option<T>>)
    ensures o.Thrown? <==> !IsSuccessStatusCode(r.status)
    ensures o.Thrown? ==> o.message == ErrorMessage(c.Method())
    ensures o.Value? ==> o.value == r.body
  {
    if IsSuccessStatusCode(r.status) then Value(r.body) else Thrown(ErrorMessage(c.Method()))
  }

  /** The same map for the delete methods, which never read the body. */
  function ReceiveNothing<T>(c: Call, r: Response<T>): (o: Outcome<()>)
    ensures o.Thrown? <==> !IsSuccessStatusCode(r.status)
    ensures o.Thrown? ==> o.message == ErrorMessage(c.Method())
  {
    if IsSuccessStatusCode(r.status) then Value(()) else Thrown(ErrorMessage(c.Method()))
  }

  // ------------------------------------------------------------------ lemmas

  /** The request a call sends is read back as exactly that call, and no other request is. */
  lemma InterpretInvertsBuild(c: Call, r: Request)
    ensures Interpret(r) == Some(c) <==> BuildRequest(c) == r
  {
  }

  /** A path argument of a call that interpolates into one URL segment. */
  predicate PlainCall(c: Call) {
    PlainPath(BuildRequest(c).path)
  }

  /** The upstream's reading of a request as it arrives on the wire, with the URL as text. */
  function InterpretText(base: string, verb: Verb, url: string, accept: bool, body: Option<Json>): Option<Call> {
    match ParseUrl(base, url)
    case None => None
    case Some((path, query)) => Interpret(Request(verb, path, query, accept, body))
  }

  /**
   * Forwarding is faithful end to end: from the verb, the URL text, the Accept
   * header and the body the upstream recovers the method and every argument,
   * skip, batchSize and state included, unmodified.
   */
  lemma UrlCarriesCall(base: string, c: Call)
    requires PlainCall(c)
    ensures var r := BuildRequest(c);
      InterpretText(base, r.verb, RequestUrl(base, r), r.accept, r.body) == Some(c)
  {
    var r := BuildRequest(c);
    UrlRoundTrip(base, r.path, r.query);
    InterpretInvertsBuild(c, r);
  }

  /** A call addressed by ids alone, with no body and no query: a read or a delete of one entity. */
  predicate AddressesById(c: Call) {
    c.GetListCall? || c.DeleteListCall? || c.GetListItemCall? || c.DeleteListItemCall?
  }

  /** The call with `tail` appended to the id its URL ends in. */
  function ExtendedId(c: Call, tail: string): (e: Call)
    requires AddressesById(c)
    ensures BuildRequest(e) == BuildRequest(c).(path := Extended(BuildRequest(c).path, tail))
  {
    match c
    case GetListCall(l) => GetListCall(l + tail)
    case DeleteListCall(l) => DeleteListCall(l + tail)
    case GetListItemCall(l, i) => GetListItemCall(l, i + tail)
    case DeleteListItemCall(l, i) => DeleteListItemCall(l, i + tail)
  }

  /**
   * Ids are not escaped: a read or delete whose last id carries a '#' reaches
   * the upstream as the same call on the id before the '#'.
   */
  lemma FragmentRedirectsCall(base: string, c: Call, rest: string)
    requires AddressesById(c) && PlainCall(c)
    ensures var r := BuildRequest(ExtendedId(c, ['#'] + rest));
      InterpretText(base, r.verb, RequestUrl(base, r), r.accept, r.body) == Some(c)
  {
    FragmentCutsArgument(base, BuildRequest(c).path, rest, None);
    InterpretInvertsBuild(c, BuildRequest(c));
  }

  /**
   * An instance: the check and the delete that deleting list "a#b" sends are
   * read upstream as reading and deleting list "a".
   */
  lemma HashInListIdRedirects(base: string)
    ensures var r := BuildRequest(GetListCall("a#b"));
      InterpretText(base, r.verb, RequestUrl(base, r), r.accept, r.body) == Some(GetListCall("a"))
    ensures var r := BuildRequest(DeleteListCall("a#b"));
      InterpretText(base, r.verb, RequestUrl(base, r), r.accept, r.body) == Some(DeleteListCall("a"))
  {
    LetterPlain('a');
    assert ExtendedId(GetListCall("a"), ['#'] + "b") == GetListCall("a#b");
    assert ExtendedId(DeleteListCall("a"), ['#'] + "b") == DeleteListCall("a#b");
    FragmentRedirectsCall(base, GetListCall("a"), "b");
    FragmentRedirectsCall(base, DeleteListCall("a"), "b");
  }

  /** Each method's message names it: no two methods throw the same message. */
  lemma ErrorMessageIdentifiesMethod(m1: Method, m2: Method)
    ensures ErrorMessage(m1) == ErrorMessage(m2) <==> m1 == m2
  {
  }
}

=== FILE: lists_controller.dfy ===
/**
 * The front end's `/v1/lists` controller: ten actions, each a step from a
 * store to a store and an HTTP result. Every action reaches the store only
 * through the proxy methods of `ListService`, answered by the upstream of
 * module `Api`; `now` stands for `DateTimeOffset.UtcNow`.
 *
 * Existence checks are uneven, as in the source: every action that names a
 * list first reads that list, except `UpdateListItem` and `DeleteListItem`,
 * which read only the item. A check reports `NotFound` only when the upstream
 * answers a missing id with a 2xx `null` body; a 404 from the upstream makes
 * the proxy throw, and the action fails with that exception's message.
 *
 * Route arguments are interpolated into the proxy's URLs unescaped, so one
 * that is not a plain segment (`PlainSegment`) reaches the upstream as some
 * other argument. The actions here hand the upstream the call they built, so
 * what their contracts say about the store and the upstream's answers is
 * stated for plain arguments only.
 */
module ListsController {
  import opened Wrappers
  import opened Models
  import opened Http
  import opened ListService
  import opened Api

  /** The request body of list creation and update. */
  datatype CreateUpdateTodoList = CreateUpdateTodoList(name: string, description: Option<string>)

  /** The request body of item creation and update. */
  datatype CreateUpdateTodoItem = CreateUpdateTodoItem(
    name: string,
    state: string,
    dueDate: Option<Timestamp>,
    completedDate: Option<Timestamp>,
    description: Option<string>)

  /** A response body; every one of them may be JSON `null`. */
  datatype Body =
    | ListBody(list: Option<TodoList>)
    | ListsBody(lists: Option<seq<TodoList>>)
    | ItemBody(item: Option<TodoItem>)
    | ItemsBody(items: Option<seq<TodoItem>>)

  /** The route values of a `CreatedAtAction` result: `GetList` or `GetListItem`. */
  datatype Location = AtList(id: Option<string>) | AtItem(listId: string, itemId: Option<string>)

  /** 200, 201, 204 and 404 results; `Error` is an unhandled exception, carrying its message. */
  datatype ActionResult =
    | Ok(body: Body)
    | Created(location: Location, body: Body)
    | NoContent
    | NotFound
    | Error(message: string)

  // ------------------------------------------- the proxy, answered upstream

  function SendForList(up: Upstream, s: Store, c: Call): (Store, Outcome<Option<TodoList>>) {
    var (s', r) := ServeList(up, s, BuildRequest(c));
    (s', Receive(c, r))
  }

  function SendForLists(up: Upstream, s: Store, c: Call): (Store, Outcome<Option<seq<TodoList>>>) {
    var (s', r) := ServeLists(up, s, BuildRequest(c));
    (s', Receive(c, r))
  }

  function SendForItem(up: Upstream, s: Store, c: Call): (Store, Outcome<Option<TodoItem>>) {
    var (s', r) := ServeItem(up, s, BuildRequest(c));
    (s', Receive(c, r))
  }

  function SendForItems(up: Upstream, s: Store, c: Call): (Store, Outcome<Option<seq<TodoItem>>>) {
    var (s', r) := ServeItems(up, s, BuildRequest(c));
    (s', Receive(c, r))
  }

  function SendForNothing(up: Upstream, s: Store, c: Call): (Store, Outcome<()>) {
    var (s', r) := ServeDelete(up, s, BuildRequest(c));
    (s', ReceiveNothing(c, r))
  }

  /** `Id` of a nullable entity, `inserted?.Id`. */
  function ListIdOf(l: Option<TodoList>): Option<string> {
    match l
    case None => None
    case Some(list) => list.id
  }

  function ItemIdOf(i: Option<TodoItem>): Option<string> {
    match i
    case None => None
    case Some(item) => item.id
  }

  /** The result of an existence check on an absent id, read by the proxy method `m`. */
  function Absent(up: Upstream, m: Method): ActionResult {
    if up.miss == NullBody then NotFound else Error(ErrorMessage(m))
  }

  /** The status the upstream fails the request of call `c` with, if it does. */
  function Fault(up: Upstream, s: Store, c: Call): Option<int> {
    up.fault(s, BuildRequest(c))
  }

  /**
   * The result of an action whose call `c` was answered with `status` and no
   * entity: the proxy's exception for a non-2xx status, and otherwise (a JSON
   * `null` body) whatever the action makes of a `null` return (`onNull`).
   */
  function Faulted(c: Call, status: int, onNull: ActionResult): ActionResult {
    if IsSuccessStatusCode(status) then onNull else Error(ErrorMessage(c.Method()))
  }

  /** The list a creation sends: the body's name and description, created now, with no id. */
  function DraftList(list: CreateUpdateTodoList, now: Timestamp): TodoList {
    TodoList(None, list.name, list.description, now, None)
  }

  /** An existing list after an update: name, description and update stamp replaced. */
  function RevisedList(existing: TodoList, list: CreateUpdateTodoList, now: Timestamp): TodoList {
    existing.(name := list.name, description := list.description, updatedDate := Some(now))
  }

  /**
   * The item a creation sends: the route's list id; the body's name, state and
   * description; created now; no id, due or completion date.
   */
  function DraftItem(listId: string, item: CreateUpdateTodoItem, now: Timestamp): TodoItem {
    TodoItem(None, listId, item.name, item.state, item.description, None, None, Some(now), None)
  }

  /** An existing item after an update: every field of the body replaced, and the update stamp. */
  function RevisedItem(existing: TodoItem, item: CreateUpdateTodoItem, now: Timestamp): TodoItem {
    existing.(
      name := item.name, description := item.description, completedDate := item.completedDate,
      dueDate := item.dueDate, state := item.state, updatedDate := Some(now))
  }

  // ----------------------------------------------------------------- actions

  /** `GET /v1/lists?skip&batchSize`. */
  function GetLists(up: Upstream, s: Store, skip: Option<int>, batchSize: Option<int>): (r: (Store, ActionResult))
    ensures r.0 == s
    ensures var c := GetListsCall(skip, batchSize);
      match Fault(up, s, c)
      case Some(status) => r.1 == Faulted(c, status, Ok(ListsBody(None)))
      case None => r.1 == Ok(ListsBody(Some(up.listPage(s, Page(skip, batchSize)))))
  {
    var (s1, o) := SendForLists(up, s, GetListsCall(skip, batchSize));
    match o
    case Thrown(m) => (s1, Error(m))
    case Value(lists) => (s1, Ok(ListsBody(lists)))
  }

  /**
   * `POST /v1/lists`. The list is stored under the id the upstream generates;
   * the store grows by one exactly when that id was not already in use.
   */
  function CreateList(up: Upstream, s: Store, list: CreateUpdateTodoList, now: Timestamp): (r: (Store, ActionResult))
    ensures var c := AddListCall(DraftList(list, now));
      match Fault(up, s, c)
      case Some(status) => r == (s, Faulted(c, status, Created(AtList(None), ListBody(None))))
      case None =>
        var id := up.newListId(s);
        var stored := DraftList(list, now).(id := Some(id));
        && r.0 == s.(lists := s.lists[id := stored])
        && r.1 == Created(AtList(Some(id)), ListBody(Some(stored)))
        && |r.0.lists| == |s.lists| + (if FreshListId(up, s) then 1 else 0)
  {
    var todoList := NamedList(list.name, now).(description := list.description);
    var (s1, o) := SendForList(up, s, AddListCall(todoList));
    match o
    case Thrown(m) => (s1, Error(m))
    case Value(inserted) => (s1, Created(AtList(ListIdOf(inserted)), ListBody(inserted)))
  }

  /** `GET /v1/lists/{list_id}`. */
  function GetList(up: Upstream, s: Store, list_id: string): (r: (Store, ActionResult))
    ensures r.0 == s
    ensures PlainSegment(list_id) ==>
      var c := GetListCall(list_id);
      match Fault(up, s, c)
      case Some(status) => r.1 == Faulted(c, status, NotFound)
      case None =>
        && (list_id in s.lists ==> r.1 == Ok(ListBody(Some(s.lists[list_id]))))
        && (list_id !in s.lists ==> r.1 == Absent(up, GetListAsync))
    ensures Reliable(up) && PlainSegment(list_id) ==> (r.1 == NotFound <==> list_id !in s.lists && up.miss == NullBody)
  {
    var (s1, o) := SendForList(up, s, GetListCall(list_id));
    match o
    case Thrown(m) => (s1, Error(m))
    case Value(None) => (s1, NotFound)
    case Value(Some(l)) => (s1, Ok(ListBody(Some(l))))
  }

  /** `PUT /v1/lists/{list_id}`: replaces name and description, stamps the update. */
  function UpdateList(up: Upstream, s: Store, list_id: string, list: CreateUpdateTodoList, now: Timestamp): (r: (Store, ActionResult))
    ensures PlainSegment(list_id) ==>
      var c := GetListCall(list_id);
      match Fault(up, s, c)
      case Some(status) => r == (s, Faulted(c, status, NotFound))
      case None =>
        if list_id !in s.lists then r == (s, Absent(up, GetListAsync))
        else
          var updated := RevisedList(s.lists[list_id], list, now);
          var c2 := UpdateListCall(updated);
          match Fault(up, s, c2)
          case Some(status) => r == (s, Faulted(c2, status, Ok(ListBody(None))))
          case None =>
            Valid(s) ==> r == (s.(lists := s.lists[list_id := updated]), Ok(ListBody(Some(updated))))
  {
    var (s1, o) := SendForList(up, s, GetListCall(list_id));
    match o
    case Thrown(m) => (s1, Error(m))
    case Value(None) => (s1, NotFound)
    case Value(Some(existingList)) =>
      var changed := existingList.(name := list.name, description := list.description, updatedDate := Some(now));
      var (s2, o2) := SendForList(up, s1, UpdateListCall(changed));
      match o2
      case Thrown(m) => (s2, Error(m))
      case Value(updatedList) => (s2, Ok(ListBody(updatedList)))
  }

  /**
   * `DELETE /v1/lists/{list_id}`: removes the list and leaves its items in
   * place. A 2xx answer to the delete that deletes nothing is reported as done.
   */
  function DeleteList(up: Upstream, s: Store, list_id: string): (r: (Store, ActionResult))
    ensures PlainSegment(list_id) ==>
      var c := GetListCall(list_id);
      match Fault(up, s, c)
      case Some(status) => r == (s, Faulted(c, status, NotFound))
      case None =>
        if list_id !in s.lists then r == (s, Absent(up, GetListAsync))
        else
          var c2 := DeleteListCall(list_id);
          match Fault(up, s, c2)
          case Some(status) => r == (s, Faulted(c2, status, NoContent))
          case None => r == (s.(lists := s.lists - {list_id}), NoContent)
  {
    var (s1, o) := SendForList(up, s, GetListCall(list_id));
    match o
    case Thrown(m) => (s1, Error(m))
    case Value(None) => (s1, NotFound)
    case Value(Some(_)) =>
      var (s2, o2) := SendForNothing(up, s1, DeleteListCall(list_id));
      match o2
      case Thrown(m) => (s2, Error(m))
      case Value(_) => (s2, NoContent)
  }

  /** `GET /v1/lists/{list_id}/items?skip&batchSize`. */
  function GetListItems(up: Upstream, s: Store, list_id: string, skip: Option<int>, batchSize: Option<int>): (r: (Store, ActionResult))
    ensures r.0 == s
    ensures PlainSegment(list_id) ==>
      var c := GetListCall(list_id);
      match Fault(up, s, c)
      case Some(status) => r.1 == Faulted(c, status, NotFound)
      case None =>
        if list_id !in s.lists then r.1 == Absent(up, GetListAsync)
        else
          var c2 := GetListItemsCall(list_id, skip, batchSize);
          match Fault(up, s, c2)
          case Some(status) => r.1 == Faulted(c2, status, Ok(ItemsBody(None)))
          case None => r.1 == Ok(ItemsBody(Some(up.itemPage(s, list_id, None, Page(skip, batchSize)))))
  {
    var (s1, o) := SendForList(up, s, GetListCall(list_id));
    match o
    case Thrown(m) => (s1, Error(m))
    case Value(None) => (s1, NotFound)
    case Value(Some(_)) =>
      var (s2, o2) := SendForItems(up, s1, GetListItemsCall(list_id, skip, batchSize));
      match o2
      case Thrown(m) => (s2, Error(m))
      case Value(items) => (s2, Ok(ItemsBody(items)))
  }

  /**
   * `POST /v1/lists/{list_id}/items`: the list id comes from the route; name,
   * description and state from the body; the body's due and completion dates
   * are dropped. The store grows by one exactly when the generated id was not
   * already in use in that list.
   */
  function CreateListItem(up: Upstream, s: Store, list_id: string, item: CreateUpdateTodoItem, now: Timestamp): (r: (Store, ActionResult))
    ensures PlainSegment(list_id) ==>
      var c := GetListCall(list_id);
      match Fault(up, s, c)
      case Some(status) => r == (s, Faulted(c, status, NotFound))
      case None =>
        if list_id !in s.lists then r == (s, Absent(up, GetListAsync))
        else
          var c2 := AddListItemCall(DraftItem(list_id, item, now));
          match Fault(up, s, c2)
          case Some(status) => r == (s, Faulted(c2, status, Created(AtItem(list_id, None), ItemBody(None))))
          case None =>
            var id := up.newItemId(s);
            var stored := DraftItem(list_id, item, now).(id := Some(id));
            && r.0 == s.(items := s.items[(list_id, id) := stored])
            && r.1 == Created(AtItem(list_id, Some(id)), ItemBody(Some(stored)))
            && |r.0.items| == |s.items| + (if FreshItemId(up, s, list_id) then 1 else 0)
  {
    var (s1, o) := SendForList(up, s, GetListCall(list_id));
    match o
    case Thrown(m) => (s1, Error(m))
    case Value(None) => (s1, NotFound)
    case Value(Some(_)) =>
      var newItem := NewItem(list_id, item.name, now).(description := item.description, state := item.state, createdDate := Some(now));
      var (s2, o2) := SendForItem(up, s1, AddListItemCall(newItem));
      match o2
      case Thrown(m) => (s2, Error(m))
      case Value(inserted) => (s2, Created(AtItem(list_id, ItemIdOf(inserted)), ItemBody(inserted)))
  }

  /** `GET /v1/lists/{list_id}/items/{item_id}`: checks the list, then the item. */
  function GetListItem(up: Upstream, s: Store, list_id: string, item_id: string): (r: (Store, ActionResult))
    ensures r.0 == s
    ensures PlainSegment(list_id) ==>
      var c := GetListCall(list_id);
      match Fault(up, s, c)
      case Some(status) => r.1 == Faulted(c, status, NotFound)
      case None =>
        if list_id !in s.lists then r.1 == Absent(up, GetListAsync)
        else PlainSegment(item_id) ==>
          var c2 := GetListItemCall(list_id, item_id);
          match Fault(up, s, c2)
          case Some(status) => r.1 == Faulted(c2, status, NotFound)
          case None =>
            && ((list_id, item_id) in s.items ==> r.1 == Ok(ItemBody(Some(s.items[(list_id, item_id)]))))
            && ((list_id, item_id) !in s.items ==> r.1 == Absent(up, GetListItemAsync))
    ensures Reliable(up) && PlainSegment(list_id) && PlainSegment(item_id) ==>
      (r.1 == NotFound <==> up.miss == NullBody && (list_id !in s.lists || (list_id, item_id) !in s.items))
  {
    var (s1, o) := SendForList(up, s, GetListCall(list_id));
    match o
    case Thrown(m) => (s1, Error(m))
    case Value(None) => (s1, NotFound)
    case Value(Some(_)) =>
      var (s2, o2) := SendForItem(up, s1, GetListItemCall(list_id, item_id));
      match o2
      case Thrown(m) => (s2, Error(m))
      case Value(None) => (s2, NotFound)
      case Value(Some(i)) => (s2, Ok(ItemBody(Some(i))))
  }

  /**
   * `PUT /v1/lists/{list_id}/items/{item_id}`: checks the item only; replaces
   * every field of the body and stamps the update.
   */
  function UpdateListItem(up: Upstream, s: Store, list_id: string, item_id: string, item: CreateUpdateTodoItem, now: Timestamp): (r: (Store, ActionResult))
    ensures PlainSegment(list_id) && PlainSegment(item_id) ==>
      var c := GetListItemCall(list_id, item_id);
      match Fault(up, s, c)
      case Some(status) => r == (s, Faulted(c, status, NotFound))
      case None =>
        if !ItemPresent(up, s, list_id, item_id) then r == (s, Absent(up, GetListItemAsync))
        else
          var updated := RevisedItem(s.items[(list_id, item_id)], item, now);
          var c2 := UpdateListItemCall(updated);
          match Fault(up, s, c2)
          case Some(status) => r == (s, Faulted(c2, status, Ok(ItemBody(None))))
          case None =>
            Valid(s) ==> r == (s.(items := s.items[(list_id, item_id) := updated]), Ok(ItemBody(Some(updated))))
  {
    var (s1, o) := SendForItem(up, s, GetListItemCall(list_id, item_id));
    match o
    case Thrown(m) => (s1, Error(m))
    case Value(None) => (s1, NotFound)
    case Value(Some(existingItem)) =>
      var changed := existingItem.(
        name := item.name, description := item.description, completedDate := item.completedDate,
        dueDate := item.dueDate, state := item.state, updatedDate := Some(now));
      var (s2, o2) := SendForItem(up, s1, UpdateListItemCall(changed));
      match o2
      case Thrown(m) => (s2, Error(m))
      case Value(updatedItem) => (s2, Ok(ItemBody(updatedItem)))
  }

  /** `DELETE /v1/lists/{list_id}/items/{item_id}`: checks the item only. */
  function DeleteListItem(up: Upstream, s: Store, list_id: string, item_id: string): (r: (Store, ActionResult))
    ensures PlainSegment(list_id) && PlainSegment(item_id) ==>
      var c := GetListItemCall(list_id, item_id);
      match Fault(up, s, c)
      case Some(status) => r == (s, Faulted(c, status, NotFound))
      case None =>
        if !ItemPresent(up, s, list_id, item_id) then r == (s, Absent(up, GetListItemAsync))
        else
          var c2 := DeleteListItemCall(list_id, item_id);
          match Fault(up, s, c2)
          case Some(status) => r == (s, Faulted(c2, status, NoContent))
          case None => r == (s.(items := s.items - {(list_id, item_id)}), NoContent)
  {
    var (s1, o) := SendForItem(up, s, GetListItemCall(list_id, item_id));
    match o
    case Thrown(m) => (s1, Error(m))
    case Value(None) => (s1, NotFound)
    case Value(Some(_)) =>
      var (s2, o2) := SendForNothing(up, s1, DeleteListItemCall(list_id, item_id));
      match o2
      case Thrown(m) => (s2, Error(m))
      case Value(_) => (s2, NoContent)
  }

  /** `GET /v1/lists/{list_id}/state/{state}?skip&batchSize`. */
  function GetListItemsByState(up: Upstream, s: Store, list_id: string, state: string, skip: Option<int>, batchSize: Option<int>): (r: (Store, ActionResult))
    ensures r.0 == s
    ensures PlainSegment(list_id) ==>
      var c := GetListCall(list_id);
      match Fault(up, s, c)
      case Some(status) => r.1 == Faulted(c, status, NotFound)
      case None =>
        if list_id !in s.lists then r.1 == Absent(up, GetListAsync)
        else
          var c2 := GetListItemsByStateCall(list_id, state, skip, batchSize);
          match Fault(up, s, c2)
          case Some(status) => r.1 == Faulted(c2, status, Ok(ItemsBody(None)))
          case None => PlainSegment(state) ==> r.1 == Ok(ItemsBody(Some(up.itemPage(s, list_id, Some(state), Page(skip, batchSize)))))
  {
    var (s1, o) := SendForList(up, s, GetListCall(list_id));
    match o
    case Thrown(m) => (s1, Error(m))
    case Value(None) => (s1, NotFound)
    case Value(Some(_)) =>
      var (s2, o2) := SendForItems(up, s1, GetListItemsByStateCall(list_id, state, skip, batchSize));
      match o2
      case Thrown(m) => (s2, Error(m))
      case Value(items) => (s2, Ok(ItemsBody(items)))
  }

  // ------------------------------------------------------- the state machine

  /** A request to the controller, named after its route and verb. */
  datatype Action =
    | ListsGet(skip: Option<int>, batchSize: Option<int>)
    | ListsPost(list: CreateUpdateTodoList)
    | ListGet(listId: string)
    | ListPut(listId: string, list: CreateUpdateTodoList)
    | ListDelete(listId: string)
    | ItemsGet(listId: string, skip: Option<int>, batchSize: Option<int>)
    | ItemsPost(listId: string, item: CreateUpdateTodoItem)
    | ItemGet(listId: string, itemId: string)
    | ItemPut(listId: string, itemId: string, item: CreateUpdateTodoItem)
    | ItemDelete(listId: string, itemId: string)
    | StateGet(listId: string, state: string, skip: Option<int>, batchSize: Option<int>)
  {
    predicate IsRead() {
      ListsGet? || ListGet? || ItemsGet? || ItemGet? || StateGet?
    }
  }

  /** One request handled atomically. */
  function Step(up: Upstream, s: Store, a: Action, now: Timestamp): (r: (Store, ActionResult))
    ensures a.IsRead() ==> r.0 == s
  {
    match a
    case ListsGet(skip, batchSize) => GetLists(up, s, skip, batchSize)
    case ListsPost(list) => CreateList(up, s, list, now)
    case ListGet(l) => GetList(up, s, l)
    case ListPut(l, list) => UpdateList(up, s, l, list, now)
    case ListDelete(l) => DeleteList(up, s, l)
    case ItemsGet(l, skip, batchSize) => GetListItems(up, s, l, skip, batchSize)
    case ItemsPost(l, item) => CreateListItem(up, s, l, item, now)
    case ItemGet(l, i) => GetListItem(up, s, l, i)
    case ItemPut(l, i, item) => UpdateListItem(up, s, l, i, item, now)
    case ItemDelete(l, i) => DeleteListItem(up, s, l, i)
    case StateGet(l, st, skip, batchSize) => GetListItemsByState(up, s, l, st, skip, batchSize)
  }

  // ------------------------------------------------------------------ lemmas

  lemma CreateListPreservesValid(up: Upstream, s: Store, list: CreateUpdateTodoList, now: Timestamp)
    requires Valid(s)
    ensures Valid(CreateList(up, s, list, now).0)
  {
    if Fault(up, s, AddListCall(DraftList(list, now))) == None {
      var id := up.newListId(s);
      assert CreateList(up, s, list, now).0.lists == s.lists[id := DraftList(list, now).(id := Some(id))];
    }
  }

  lemma CreateListItemPreservesValid(up: Upstream, s: Store, l: string, item: CreateUpdateTodoItem, now: Timestamp)
    requires Valid(s)
    ensures Valid(CreateListItem(up, s, l, item, now).0)
  {
    var c2 := AddListItemCall(DraftItem(l, item, now));
    if Fault(up, s, GetListCall(l)) == None && l in s.lists && Fault(up, s, c2) == None {
      var id := up.newItemId(s);
      assert CreateListItem(up, s, l, item, now).0.items == s.items[(l, id) := DraftItem(l, item, now).(id := Some(id))];
    }
  }

  lemma UpdateListPreservesValid(up: Upstream, s: Store, l: string, list: CreateUpdateTodoList, now: Timestamp)
    requires Valid(s)
    ensures Valid(UpdateList(up, s, l, list, now).0)
  {
    if Fault(up, s, GetListCall(l)) == None && l in s.lists {
      var updated := RevisedList(s.lists[l], list, now);
      if Fault(up, s, UpdateListCall(updated)) == None {
        assert UpdateList(up, s, l, list, now).0 == s.(lists := s.lists[l := updated]);
      }
    }
  }

  lemma UpdateListItemPreservesValid(up: Upstream, s: Store, l: string, i: string, item: CreateUpdateTodoItem, now: Timestamp)
    requires Valid(s)
    ensures Valid(UpdateListItem(up, s, l, i, item, now).0)
  {
    if Fault(up, s, GetListItemCall(l, i)) == None && ItemPresent(up, s, l, i) {
      var updated := RevisedItem(s.items[(l, i)], item, now);
      if Fault(up, s, UpdateListItemCall(updated)) == None {
        assert UpdateListItem(up, s, l, i, item, now).0 == s.(items := s.items[(l, i) := updated]);
      }
    }
  }

  lemma DeleteListPreservesValid(up: Upstream, s: Store, l: string)
    requires Valid(s)
    ensures Valid(DeleteList(up, s, l).0)
  {
  }

  lemma DeleteListItemPreservesValid(up: Upstream, s: Store, l: string, i: string)
    requires Valid(s)
    ensures Valid(DeleteListItem(up, s, l, i).0)
  {
  }

  /** Every action keeps each stored entity under its own ids, whatever the upstream fails. */
  lemma StepPreservesValid(up: Upstream, s: Store, a: Action, now: Timestamp)
    requires Valid(s)
    ensures Valid(Step(up, s, a, now).0)
  {
    match a
    case ListsPost(list) => CreateListPreservesValid(up, s, list, now);
    case ListPut(l, list) => UpdateListPreservesValid(up, s, l, list, now);
    case ListDelete(l) => DeleteListPreservesValid(up, s, l);
    case ItemsPost(l, item) => CreateListItemPreservesValid(up, s, l, item, now);
    case ItemPut(l, i, item) => UpdateListItemPreservesValid(up, s, l, i, item, now);
    case ItemDelete(l, i) => DeleteListItemPreservesValid(up, s, l, i);
    case _ =>
  }

  /**
   * The entities the creations send are the constructors' results with the
   * body's fields set: no id, no update stamp, and for an item no due or
   * completion date.
   */
  lemma DraftsAreConstructed(l: string, list: CreateUpdateTodoList, item: CreateUpdateTodoItem, now: Timestamp)
    ensures DraftList(list, now) == NamedList(list.name, now).(description := list.description)
    ensures DraftItem(l, item, now) == NewItem(l, item.name, now).(description := item.description, state := item.state)
    ensures Unsaved(DraftList(list, now).(description := None))
    ensures var d := DraftItem(l, item, now); UnsavedItem(d.(description := None)) && d.createdDate == Some(now)
  {
  }

  /**
   * Every route argument of the action is a plain segment, so it reaches the
   * upstream as the controller received it.
   */
  predicate PlainAction(a: Action) {
    match a
    case ListsGet(_, _) => true
    case ListsPost(_) => true
    case ListGet(l) => PlainSegment(l)
    case ListPut(l, _) => PlainSegment(l)
    case ListDelete(l) => PlainSegment(l)
    case ItemsGet(l, _, _) => PlainSegment(l)
    case ItemsPost(l, _) => PlainSegment(l)
    case ItemGet(l, i) => PlainSegment(l) && PlainSegment(i)
    case ItemPut(l, i, _) => PlainSegment(l) && PlainSegment(i)
    case ItemDelete(l, i) => PlainSegment(l) && PlainSegment(i)
    case StateGet(l, st, _, _) => PlainSegment(l) && PlainSegment(st)
  }

  /** The existence checks an action makes before it acts, in order. */
  function Checks(a: Action): seq<Call> {
    match a
    case ListsGet(_, _) => []
    case ListsPost(_) => []
    case ListGet(l) => [GetListCall(l)]
    case ListPut(l, _) => [GetListCall(l)]
    case ListDelete(l) => [GetListCall(l)]
    case ItemsGet(l, _, _) => [GetListCall(l)]
    case ItemsPost(l, _) => [GetListCall(l)]
    case ItemGet(l, i) => [GetListCall(l), GetListItemCall(l, i)]
    case ItemPut(l, i, _) => [GetListItemCall(l, i)]
    case ItemDelete(l, i) => [GetListItemCall(l, i)]
    case StateGet(l, _, _, _) => [GetListCall(l)]
  }

  /**
   * The existence check `c` returns `null`: the upstream answers it with a
   * 2xx status and a JSON `null` body, either as a failure or because the id
   * is absent and absent ids are answered that way.
   */
  predicate CheckNull(up: Upstream, s: Store, c: Call) {
    match Fault(up, s, c)
    case Some(status) => IsSuccessStatusCode(status)
    case None =>
      && up.miss == NullBody
      && match c
         case GetListCall(l) => l !in s.lists
         case GetListItemCall(l, i) => !ItemPresent(up, s, l, i)
         case _ => false
  }

  /** An action that reads a list, or lists its items, reports `NotFound` exactly when the list's check returns `null`. */
  lemma ListReadNotFound(up: Upstream, s: Store, a: Action, now: Timestamp)
    requires a.ListGet? || a.ItemsGet? || a.StateGet?
    ensures PlainSegment(a.listId) ==>
      (Step(up, s, a, now).1 == NotFound <==> CheckNull(up, s, GetListCall(a.listId)))
  {
  }

  /** An action that writes under a list reports `NotFound` exactly when the list's check returns `null`. */
  lemma ListWriteNotFound(up: Upstream, s: Store, a: Action, now: Timestamp)
    requires a.ListPut? || a.ListDelete? || a.ItemsPost?
    ensures PlainSegment(a.listId) ==>
      (Step(up, s, a, now).1 == NotFound <==> CheckNull(up, s, GetListCall(a.listId)))
  {
  }

  /** Updating or deleting an item reports `NotFound` exactly when the item's check returns `null`. */
  lemma ItemWriteNotFound(up: Upstream, s: Store, a: Action, now: Timestamp)
    requires a.ItemPut? || a.ItemDelete?
    ensures PlainAction(a) ==>
      (Step(up, s, a, now).1 == NotFound <==> CheckNull(up, s, GetListItemCall(a.listId, a.itemId)))
  {
  }

  /**
   * Reading an item reports `NotFound` exactly when the list's check returns
   * `null`, or the list is found and the item's check returns `null`.
   */
  lemma ItemReadNotFound(up: Upstream, s: Store, l: string, i: string, now: Timestamp)
    ensures PlainSegment(l) && PlainSegment(i) ==>
      (Step(up, s, ItemGet(l, i), now).1 == NotFound <==>
        || CheckNull(up, s, GetListCall(l))
        || (Fault(up, s, GetListCall(l)) == None && l in s.lists
            && CheckNull(up, s, GetListItemCall(l, i))))
  {
  }

  /**
   * `NotFound` is reachable only through a `null` from one of the action's
   * existence checks, and a `null` from its first check always gives it.
   */
  lemma NotFoundNeedsNullBody(up: Upstream, s: Store, a: Action, now: Timestamp)
    ensures PlainAction(a) && Step(up, s, a, now).1 == NotFound ==> exists c :: c in Checks(a) && CheckNull(up, s, c)
    ensures PlainAction(a) && |Checks(a)| > 0 && CheckNull(up, s, Checks(a)[0]) ==> Step(up, s, a, now).1 == NotFound
  {
    if PlainAction(a) {
      match a
      case ListsGet(_, _) =>
      case ListsPost(_) =>
      case ItemGet(l, i) =>
        ItemReadNotFound(up, s, l, i, now);
        assert Checks(a)[0] in Checks(a) && Checks(a)[1] in Checks(a);
      case _ =>
        FirstCheckDecides(up, s, a, now);
        assert Checks(a)[0] in Checks(a);
    }
  }

  /** For every action with one existence check, that check alone decides `NotFound`. */
  lemma FirstCheckDecides(up: Upstream, s: Store, a: Action, now: Timestamp)
    requires |Checks(a)| == 1
    ensures PlainAction(a) ==> (Step(up, s, a, now).1 == NotFound <==> CheckNull(up, s, Checks(a)[0]))
  {
    match a
    case ListGet(_) => ListReadNotFound(up, s, a, now);
    case ItemsGet(_, _, _) => ListReadNotFound(up, s, a, now);
    case StateGet(_, _, _, _) => ListReadNotFound(up, s, a, now);
    case ListPut(_, _) => ListWriteNotFound(up, s, a, now);
    case ListDelete(_) => ListWriteNotFound(up, s, a, now);
    case ItemsPost(_, _) => ListWriteNotFound(up, s, a, now);
    case ItemPut(_, _, _) => ItemWriteNotFound(up, s, a, now);
    case ItemDelete(_, _) => ItemWriteNotFound(up, s, a, now);
  }

  /**
   * With an upstream that answers a missing id with 404, a failed existence
   * check surfaces as the proxy's exception instead of `NotFound`.
   */
  lemma MissingListIsError(up: Upstream, s: Store, l: string, now: Timestamp)
    requires up.miss == NotFoundStatus && l !in s.lists
    requires Fault(up, s, GetListCall(l)) == None
    ensures PlainSegment(l) ==> Step(up, s, ListGet(l), now).1 == Error("Error retreiving list")
    ensures PlainSegment(l) ==> Step(up, s, ListDelete(l), now) == (s, Error("Error retreiving list"))
  {
  }

  /**
   * Deleting a list does not cascade: its items stay in the store. They can no
   * longer be listed or read through the list. When the upstream's item routes
   * do not look at the list, they can still be updated and deleted, because
   * those two actions check only the item.
   */
  lemma DeletedListOrphansItems(up: Upstream, s: Store, l: string, i: string, item: CreateUpdateTodoItem, now: Timestamp)
    requires Valid(s) && Reliable(up) && up.miss == NullBody && !up.checksParentList
    requires l in s.lists && (l, i) in s.items
    ensures PlainSegment(l) && PlainSegment(i) ==>
      var s1 := DeleteList(up, s, l).0;
      && DeleteList(up, s, l).1 == NoContent
      && Valid(s1)
      && (l, i) in s1.items && s1.items == s.items
      && GetListItems(up, s1, l, None, None).1 == NotFound
      && GetListItem(up, s1, l, i).1 == NotFound
      && UpdateListItem(up, s1, l, i, item, now).1.Ok?
      && DeleteListItem(up, s1, l, i) == (s1.(items := s.items - {(l, i)}), NoContent)
  {
    if PlainSegment(l) && PlainSegment(i) {
      assert Fault(up, s, GetListCall(l)) == None;
      assert Fault(up, s, DeleteListCall(l)) == None;
      var s1 := DeleteList(up, s, l).0;
      assert s1 == s.(lists := s.lists - {l});
      StepPreservesValid(up, s, ListDelete(l), now);
      OrphanReachableByItem(up, s1, l, i, item, now);
    }
  }

  /** An item whose list is gone is hidden from the list routes but not from the item routes. */
  lemma OrphanReachableByItem(up: Upstream, s: Store, l: string, i: string, item: CreateUpdateTodoItem, now: Timestamp)
    requires Valid(s) && Reliable(up) && up.miss == NullBody && !up.checksParentList
    requires PlainSegment(l) && PlainSegment(i)
    requires l !in s.lists && (l, i) in s.items
    ensures GetListItems(up, s, l, None, None).1 == NotFound
    ensures GetListItem(up, s, l, i).1 == NotFound
    ensures UpdateListItem(up, s, l, i, item, now).1.Ok?
    ensures DeleteListItem(up, s, l, i) == (s.(items := s.items - {(l, i)}), NoContent)
  {
    assert Fault(up, s, GetListCall(l)) == None;
    assert Fault(up, s, GetListItemCall(l, i)) == None;
    assert Fault(up, s, UpdateListItemCall(RevisedItem(s.items[(l, i)], item, now))) == None;
    assert Fault(up, s, DeleteListItemCall(l, i)) == None;
  }

  /**
   * When the upstream's item routes do look at the list, the items a list
   * deletion leaves behind are unreachable: updating or deleting one reports
   * `NotFound` and changes nothing.
   */
  lemma DeletedListHidesItems(up: Upstream, s: Store, l: string, i: string, item: CreateUpdateTodoItem, now: Timestamp)
    requires Valid(s) && Reliable(up) && up.miss == NullBody && up.checksParentList
    requires l in s.lists && (l, i) in s.items
    ensures PlainSegment(l) && PlainSegment(i) ==>
      var s1 := DeleteList(up, s, l).0;
      && DeleteList(up, s, l).1 == NoContent
      && (l, i) in s1.items
      && UpdateListItem(up, s1, l, i, item, now) == (s1, NotFound)
      && DeleteListItem(up, s1, l, i) == (s1, NotFound)
  {
    if PlainSegment(l) && PlainSegment(i) {
      var s1 := DeleteList(up, s, l).0;
      assert Fault(up, s, GetListCall(l)) == None;
      assert Fault(up, s, DeleteListCall(l)) == None;
      assert Fault(up, s1, GetListItemCall(l, i)) == None;
    }
  }

  /** A list just created is read back with the body's name and description and no update stamp. */
  lemma CreatedListIsReadable(up: Upstream, s: Store, list: CreateUpdateTodoList, now: Timestamp)
    requires Reliable(up)
    ensures var (s1, created) := CreateList(up, s, list, now);
      var id := up.newListId(s);
      && created.Created?
      && (PlainSegment(id) ==> GetList(up, s1, id).1 == Ok(created.body))
      && created.body.list.Some?
      && var l := created.body.list.value;
        l.id == Some(id) && l.name == list.name && l.description == list.description
        && l.createdDate == now && l.updatedDate == None
  {
    var s1 := CreateList(up, s, list, now).0;
    assert Fault(up, s, AddListCall(DraftList(list, now))) == None;
    assert Fault(up, s1, GetListCall(up.newListId(s))) == None;
  }

  /** Creating an item under an existing list of a reliable upstream stores the drafted item under the new id. */
  lemma CreatedItemStored(up: Upstream, s: Store, l: string, item: CreateUpdateTodoItem, now: Timestamp)
    requires Valid(s) && Reliable(up) && l in s.lists
    ensures PlainSegment(l) ==>
      var s1 := CreateListItem(up, s, l, item, now).0;
      var id := up.newItemId(s);
      && Valid(s1) && s1.lists == s.lists
      && (l, id) in s1.items && s1.items[(l, id)] == DraftItem(l, item, now).(id := Some(id))
  {
    if PlainSegment(l) {
      assert Fault(up, s, GetListCall(l)) == None;
      assert Fault(up, s, AddListItemCall(DraftItem(l, item, now))) == None;
      CreateListItemPreservesValid(up, s, l, item, now);
    }
  }

  /**
   * An item created under an existing list is read back through that list;
   * a later update replaces its state and stamps it, keeping its ids and
   * creation date.
   */
  lemma CreatedItemLifecycle(up: Upstream, s: Store, l: string, item: CreateUpdateTodoItem, change: CreateUpdateTodoItem, t0: Timestamp, t1: Timestamp)
    requires Valid(s) && Reliable(up) && l in s.lists
    ensures PlainSegment(l) && PlainSegment(up.newItemId(s)) ==>
      var s1 := CreateListItem(up, s, l, item, t0).0;
      var id := up.newItemId(s);
      var s2 := UpdateListItem(up, s1, l, id, change, t1).0;
      && GetListItem(up, s1, l, id).1.Ok?
      && (l, id) in s2.items
      && s2.items[(l, id)].state == change.state
      && s2.items[(l, id)].updatedDate == Some(t1)
      && s2.items[(l, id)].id == Some(id)
      && s2.items[(l, id)].listId == l
      && s2.items[(l, id)].createdDate == Some(t0)
  {
    if PlainSegment(l) && PlainSegment(up.newItemId(s)) {
      var id := up.newItemId(s);
      var s1 := CreateListItem(up, s, l, item, t0).0;
      CreatedItemStored(up, s, l, item, t0);
      assert Fault(up, s1, GetListCall(l)) == None;
      assert Fault(up, s1, GetListItemCall(l, id)) == None;
      assert Fault(up, s1, UpdateListItemCall(RevisedItem(s1.items[(l, id)], change, t1))) == None;
    }
  }
}

=== FILE: models.dfy ===
/**
 * The two persisted entities, `TodoList` and `TodoItem`, with the defaults
 * their C# constructors and property initialisers give them.
 *
 * `DateTimeOffset.UtcNow` is read at construction time in the source; here the
 * instant is the parameter `now`. Timestamps are only stored and compared, so
 * an abstract integer instant is enough.
 */
module Models {
  import opened Wrappers

  /** An instant in time (a `DateTimeOffset`). */
  type Timestamp = int

  /** A named collection of items. `id` is assigned by the store on insertion. */
  datatype TodoList = TodoList(
    id: Option<string>,
    name: string,
    description: Option<string>,
    createdDate: Timestamp,
    updatedDate: Option<Timestamp>)

  /** A to-do entry belonging to the list `listId`; `state` is an open string domain. */
  datatype TodoItem = TodoItem(
    id: Option<string>,
    listId: string,
    name: string,
    state: string,
    description: Option<string>,
    dueDate: Option<Timestamp>,
    completedDate: Option<Timestamp>,
    createdDate: Option<Timestamp>,
    updatedDate: Option<Timestamp>)

  /** The value of `TodoItemState.Todo`, the state a new item starts in. */
  const TodoState: string := "todo"

  /** The name the parameterless `TodoList` constructor gives a list. */
  const DefaultListName: string := "test"

  /** A list as a constructor leaves it: not yet stored, never described or updated. */
  predicate Unsaved(l: TodoList) {
    l.id == None && l.description == None && l.updatedDate == None
  }

  /** An item as its constructor leaves it: not yet stored, no optional field set. */
  predicate UnsavedItem(i: TodoItem) {
    && i.id == None
    && i.description == None
    && i.dueDate == None
    && i.completedDate == None
    && i.updatedDate == None
  }

  /** `new TodoList()` at instant `now`. */
  function DefaultList(now: Timestamp): (l: TodoList)
    ensures l.name == DefaultListName
    ensures Unsaved(l) && l.createdDate == now
  {
    TodoList(None, DefaultListName, None, now, None)
  }

  /** `new TodoList(name)` at instant `now`. */
  function NamedList(name: string, now: Timestamp): (l: TodoList)
    ensures l.name == name
    ensures Unsaved(l) && l.createdDate == now
  {
    TodoList(None, name, None, now, None)
  }

  /** `new TodoItem(listId, name)` at instant `now`. */
  function NewItem(listId: string, name: string, now: Timestamp): (i: TodoItem)
    ensures i.listId == listId && i.name == name
    ensures i.state == TodoState
    ensures UnsavedItem(i) && i.createdDate == Some(now)
  {
    TodoItem(None, listId, name, TodoState, None, None, None, Some(now), None)
  }

  /** The two list constructors differ only in where the name comes from. */
  lemma DefaultListIsNamedTest(now: Timestamp)
    ensures DefaultList(now) == NamedList(DefaultListName, now)
  {
  }

  /** The list constructor's result is recognised by its defaults alone: any unsaved list created at `now` is one. */
  lemma NamedListCharacterised(l: TodoList, now: Timestamp)
    ensures l == NamedList(l.name, now) <==> Unsaved(l) && l.createdDate == now
  {
  }

  /**
   * The item constructor's result is recognised by its defaults alone: any
   * unsaved item in the Todo state, created at `now`, is one.
   */
  lemma NewItemCharacterised(i: TodoItem, now: Timestamp)
    ensures i == NewItem(i.listId, i.name, now) <==> UnsavedItem(i) && i.state == TodoState && i.createdDate == Some(now)
  {
  }
}

=== FILE: wrappers.dfy ===
/** Optional values: the model's stand-in for C# nullable references and `T?` values. */
module Wrappers {

  datatype Option<+T> = None | Some(value: T) {

    /** The wrapped value, or `default` when there is none. */
    function GetOr(default: T): T {
      match this
      case Some(v) => v
      case None => default
    }
  }
}
